=== FILE: README.md ===
# Multi-modal RAG core in Dafny

This project models the ranking and formatting core of a PDF
question-answering application written in Python. Extracted text blocks,
tables and images are summarised and stored in a vector store. Questions are
answered from documents found by hybrid retrieval. The model covers:

- **Retriever** (`retriever.dfy`, `rank_fusion.dfy`). It covers tokenisation
  (`lower().split()`) and the BM25 keyword index, including its no-op on an
  empty store. It covers `keyword_search`: top-k by score, with only positive
  scores kept. It covers Reciprocal Rank Fusion: `1/(k + rank)` summed over
  the lists, then a stable sort by score, highest first, with each id's
  first-seen record. It covers `retrieve`: twice `top_k` from each index,
  fused with k = 60, cut to `top_k`.
- **VectorStore** (`vector_store.dfy`). The content store is an
  insertion-ordered map from document id to stored record, kept in step with
  the collection's documents and metadata. Operations are `add_documents`,
  `get_original_content`, `reset` and `get_all_documents`, plus the
  formatting loop of `search`.
- **DocumentProcessor** (`document_processor.dfy`). Covers
  `_table_to_markdown` (a GitHub Flavored Markdown pipe table, section 4.10
  of the GFM specification, cells not escaped) and `get_all_content`.
- **AnswerGenerator** (`answer_generator.dfy`). Covers `_format_context`,
  `_get_content_preview`, and `generate_answer` around the model call.
- **Strings** and **Records** (`strings.dfy`, `records.dfy`). Strings holds
  the Python string built-ins the code relies on: `join`, `split`, `split()`,
  `lower`, `strip`, and `str` of integers and of bytes. Records holds the
  dictionaries passed between components, as datatypes.

The outside engines are function parameters with only the guarantees the
code relies on:

- the embedding model and the cosine nearest-neighbour query (`ann`);
- BM25 scoring (`bm25`), one score per indexed document;
- `np.argsort` (`argsort`), any ascending order of the positions;
- the language model (`model`), which replies with text or raises with a
  message.

uuid4 ids are a parameter: a list of fresh, distinct ids. Scores are exact
reals.

Two consequences of the code are worth stating:

- With k = 60, the lists `[A, B, C]` and `[B, C, D]` fuse to B, C, A, D. D is
  third in the second list, so its fused score is 1/63
  (`RankFusion.ScoresOfExample`, `RankFusion.WorkedExample`).
- `_build_keyword_index` assigns nothing when the store has no documents.
  After `reset`, a rebuild therefore keeps the old BM25 index. Keyword search
  and `retrieve` still return the old documents, under ids the store no
  longer holds (`Retriever.StaleIndexAfterReset`,
  `Retriever.RetrieveAfterReset`).

## Model

| member | source | states |
|---|---|---|
| RankFusion.Rrf | src/retriever.py:80-116 | The fused list holds every id of the input lists exactly once. Each id comes with its first-seen record and its reciprocal-rank score, the sum over lists of 1/(k + 1-based rank). Scores do not increase, and equal scores keep first-appearance order. |
| RankFusion.Accumulate | src/retriever.py:95-104 | The score-summing loop ends with each seen id listed once, in order of first sight, with its summed contributions and the first record seen for it. |
| RankFusion.StepPreserves | src/retriever.py:97-104 | One iteration of the loop body preserves that invariant: a new id gets score 0 and its record, then every sighting adds 1/(k + rank). |
| RankFusion.EnumerateScore | src/retriever.py:96-98 | What `enumerate(results, start=1)` contributes to an id equals the list score, the sum of 1/(k + r) over its 1-based positions. |
| RankFusion.VisitsMeaning | src/retriever.py:95-98 | The nested loop visits the records of all lists in order, and its contributions sum to the fused score. |
| RankFusion.SortDesc | src/retriever.py:107 | The sort is a permutation of the entries, highest score first, with ties in insertion order (stable). |
| RankFusion.ListScoreAbsent | src/retriever.py:95-104 | A list that does not hold the id contributes 0. |
| RankFusion.ListScoreOnce | src/retriever.py:96-104 | A list holding the id once, at 0-based position p, contributes exactly 1/(k + p + 1). |
| RankFusion.FusedScorePositiveIffPresent | src/retriever.py:95-104 | A fused score is never negative, and it is positive exactly when the id occurs in some list. |
| RankFusion.FusedScoreAtMost | src/retriever.py:95-104 | When no list repeats an id, a fused score is at most the number of lists times 1/(k + 1). |
| RankFusion.RankingFacts | src/retriever.py:107-114 | A fusion result has distinct ids, exactly the ids of the inputs, and non-increasing scores, each equal to the reference score of its id. |
| RankFusion.RankingLength | src/retriever.py:100-114 | Fusion never returns more results than the lists hold together. |
| RankFusion.WorkedExample | src/retriever.py:95-107 | With k = 60, the lists [A, B, C] and [B, C, D] fuse to B, C, A, D. |
| RankFusion.ScoresOfExample | src/retriever.py:95-104 | In that example A scores 1/61, B 1/62 + 1/61, C 1/63 + 1/62 and D 1/63. |
| Retriever.Tokenize | src/retriever.py:36 | Every token is non-empty, holds no whitespace and has no upper-case letter. Empty text has no tokens. |
| Retriever.TokenizeIgnoresCase | src/retriever.py:54 | Lower-casing a query before tokenising changes nothing, so queries and summaries are tokenised the same way. |
| Retriever.TokenizeWords | src/retriever.py:36 | Lower-case words joined with single spaces tokenise back to exactly those words, in order. |
| Retriever.TokenizeOfWord | src/retriever.py:36 | Text without whitespace is one token, the text lower-cased. |
| Retriever.TokenizeAtSpace | src/retriever.py:36 | Any whitespace character (space, newline, tab or other `str.isspace` character) splits the text: the tokens of `a + c + b` are those of `a` followed by those of `b`, so runs of whitespace produce no empty tokens. With the row above and the empty case this fixes the tokens of every text. |
| Strings.WordsOfWord | src/retriever.py:36 | `split()` of a non-empty string without whitespace is that string alone. |
| Strings.WordsAtSpace | src/retriever.py:36 | `split()` cuts at every whitespace character: the pieces of `a + c + b` are those of `a` followed by those of `b`. |
| Retriever.TokensRoundTrip | src/retriever.py:36 | Tokens joined back with single spaces tokenise to the same tokens. |
| Retriever.BuildKeywordIndex | src/retriever.py:25-42 | An empty store leaves the previous index as it was. Otherwise the result is a well-formed index over exactly the store's ids, each with its stored summary and that summary's tokens. |
| Retriever.NewRetriever | src/retriever.py:14-23 | A new retriever has an index exactly when the store is non-empty. That index is well-formed and covers exactly the store's ids, each with its stored summary. |
| Retriever.RebuildIndex | src/retriever.py:141-143 | Rebuilding keeps the index well-formed, and it keeps the old index when the store is empty. Over a non-empty store the new index covers exactly the store's current ids, each with its stored summary. |
| Retriever.RebuildIdempotent | src/retriever.py:141-143 | Rebuilding twice equals rebuilding once. Over a non-empty store the result does not depend on the previous index. |
| Retriever.ReversedDescends | src/retriever.py:60 | Reversing an ascending argsort gives every position once, highest score first. |
| Retriever.PositiveOnly | src/retriever.py:64-65 | The filter keeps exactly the positions whose score is positive, and no others. |
| Retriever.PositiveOnlySubsequence | src/retriever.py:64-65 | The kept positions appear in the same relative order as in the top-k list. |
| Retriever.PositiveOnlyKeepsAll | src/retriever.py:64-65 | When every score is positive the filter keeps every position. |
| Retriever.PositiveOnlyOrdered | src/retriever.py:64-65 | The filter keeps scores in non-increasing order. |
| Retriever.TopPositions | src/retriever.py:60-65 | Keyword search reports at most k distinct positions, all with a positive score, in non-increasing score order. |
| Retriever.TopPositionsComplete | src/retriever.py:60-65 | A positive-scoring position left out means k positions were reported, each scoring at least as high. |
| Retriever.KeywordSearch | src/retriever.py:48-78 | Returns nothing without an index. Otherwise it returns at most k results with distinct ids and positive BM25 scores, in non-increasing score order. Each result carries its index position's summary and score, plus the store's current record for its id (or `None` and `{}`). |
| Retriever.KeywordSearchComplete | src/retriever.py:60-65 | Top-k completeness: an indexed document with a positive score that is missing from the results means k results were returned, each scoring at least as high. |
| Retriever.Retrieve | src/retriever.py:118-139 | At most `top_k` results with distinct ids, drawn from the dense and keyword results for `2 * top_k`. Each result's score is its reciprocal-rank score over those two lists (k = 60), between 0 and 2/61. Scores do not increase. Each result carries the first record seen for its id in the dense list followed by the keyword list, and results with equal scores come in order of first appearance there. |
| Retriever.ListsIds | src/retriever.py:130-136 | The fusion sees the dense ids followed by the keyword ids. |
| Retriever.RetrieveComplete | src/retriever.py:130-139 | A document either search found that is not returned means `top_k` results were returned, each with a fused score at least its own. A returned document whose score equals the left-out one's appears earlier in the dense list followed by the keyword list. |
| Retriever.RetrieveFromEmptyStore | src/retriever.py:25-51 | A retriever built over an empty store has no index and retrieves nothing. |
| Retriever.StaleIndexAfterReset | src/retriever.py:25-28 | After a reset, rebuilding keeps the old index. A query an old document matches still has keyword results, for ids the store no longer holds and without content, page or type. |
| Retriever.RetrieveAfterReset | src/retriever.py:130-139 | After a reset without new documents, retrieval still returns results when an old document matches, all for ids the store no longer holds. |
| VectorStore.NewStore | src/vector_store.py:41-47 | A new store has an empty collection and an empty content store. |
| VectorStore.ChosenSummary | src/vector_store.py:67 | For an item the encoder accepts, the searchable document is the summary when the key holds text. Otherwise it is the text content, or "" when the content key is absent. |
| VectorStore.StoredOf | src/vector_store.py:83-89 | The stored record keeps the content (or `None`), the chosen summary, and the item's page, type and metadata. |
| VectorStore.AddDocuments | src/vector_store.py:49-98 | Each item is stored under its new id and appended to the insertion order. Earlier records are unchanged, no other id appears, and the store grows by exactly the number of items. |
| VectorStore.AddKeepsConsistent | src/vector_store.py:83-98 | After the add, the collection and the content store still hold the same ids, with matching documents and metadata. |
| VectorStore.AddNothing | src/vector_store.py:92 | An empty batch leaves the store and the collection as they were. |
| VectorStore.AddThenGet | src/vector_store.py:83-89 | Every added item reads back by its id, and every other id reads as before. |
| VectorStore.GetOriginalContent | src/vector_store.py:137-147 | Returns the record stored under the id, and `None` for an unknown id. |
| VectorStore.Reset | src/vector_store.py:149-159 | After a reset the collection, the content store and the order are empty. |
| VectorStore.ResetForgets | src/vector_store.py:149-159 | After a reset no id reads back and no document is listed. |
| VectorStore.GetAllDocuments | src/vector_store.py:161-168 | One document per stored id, in insertion order, each the stored record under its `doc_id`. |
| VectorStore.AllDocumentsAgree | src/vector_store.py:161-168 | The listed documents are exactly the ids `get_original_content` answers for, each with the record it returns. |
| VectorStore.AddThenAllDocuments | src/vector_store.py:161-168 | After an add, the listing is the old listing followed by the new records, in item order. |
| VectorStore.FormatHits | src/vector_store.py:121-133 | One result per backend hit, in hit order. Each result carries the hit's id and distance, the stored summary, original content, page and type, and `doc_id` in its metadata. |
| VectorStore.Search | src/vector_store.py:100-135 | One result per nearest-neighbour hit for the query and n, in the hits' order, each with the hit's id and distance. At most n results, with distinct ids of stored documents. Each result carries its stored summary as document, its stored original content, page and type, and metadata whose `doc_id` is its id. |
| VectorStore.HitsWithinCollection | src/vector_store.py:115-118 | Hits for distinct ids of the collection are no more than the collection's size. |
| DocumentProcessor.Fit | src/document_processor.py:98-102 | A body row gets exactly the header's width: extra cells are dropped, missing ones are "". |
| DocumentProcessor.MarkdownLines | src/document_processor.py:93-102 | One more line than rows. The header line is the cleaned header, and the delimiter line has one `---` per header cell. Every body line is its cleaned row fitted to the header width. |
| DocumentProcessor.TableToMarkdown | src/document_processor.py:78-104 | The rendering is "" exactly for an empty table. |
| DocumentProcessor.TableLines | src/document_processor.py:93-104 | When no cell holds a newline, the rendering splits back into exactly its lines, one more than the table has rows. |
| DocumentProcessor.LinePipes | src/document_processor.py:95 | A line of n pipe-free cells holds n + 1 pipes, or 2 when empty. |
| DocumentProcessor.TableIsRectangular | src/document_processor.py:94-102 | When no cell holds a pipe, every line has as many pipes as the header line, so the same number of columns. |
| DocumentProcessor.GetAllContent | src/document_processor.py:127-133 | The text blocks, then the tables, then the images, with length the sum of the three. |
| DocumentProcessor.AllContentByKind | src/document_processor.py:127-133 | Selecting one content type from the flat list gives back exactly that type's list. |
| AnswerGenerator.ContextParts | src/answer_generator.py:33-49 | Two parts per document. |
| AnswerGenerator.ContextPartsAt | src/answer_generator.py:35-49 | Part 2i is the block of source i + 1 and part 2i + 1 is the empty spacer. |
| AnswerGenerator.PartsSnoc | src/answer_generator.py:35-49 | One more document appends its block, numbered one past the others, and a spacer. |
| AnswerGenerator.FormatContext | src/answer_generator.py:23-51 | The context is "" exactly when there are no documents. |
| AnswerGenerator.FormatContextSnoc | src/answer_generator.py:49-51 | One more document extends the context by a newline (unless first), its block and a trailing newline. |
| Strings.NatToStringRoundTrip | src/answer_generator.py:41-47 | The source number in each header is written in decimal: reading its digits back gives the number, so distinct sources get distinct numbers. |
| AnswerGenerator.ImageBlockHidesContent | src/answer_generator.py:44-45 | The block of an image does not depend on its original content. |
| AnswerGenerator.ContextHidesImageContent | src/answer_generator.py:44-45 | Document lists that differ only in the content of images give the same context. |
| AnswerGenerator.TextPreview | src/answer_generator.py:128-132 | At most `max_length` + 3 characters. A short text is shown whole. A longer one shows its first `max_length` characters and "...". |
| AnswerGenerator.ContentPreview | src/answer_generator.py:114-132 | Images preview as "[Image/Diagram]" and tables by the table preview. Any other type, including an absent or `None` one, previews as the text preview of `str(original_content)`, within `max_length` + 3 characters. |
| AnswerGenerator.TablePreviewIsPrefix | src/answer_generator.py:121-127 | The shown lines are a prefix of the content. "..." is added exactly when the content has a fourth line. Content of at most three lines is shown whole. |
| AnswerGenerator.Sources | src/answer_generator.py:95-102 | One source per document, in order, with its page, type and original content (absent read as `None`) and its preview. |
| AnswerGenerator.GenerateAnswer | src/answer_generator.py:53-112 | No documents give the fixed answer and no sources. Otherwise a raised model gives the error message and no sources, and a reply gives the stripped text with the sources. |
| AnswerGenerator.EmptyRetrievalIgnoresModel | src/answer_generator.py:64-68 | With no documents the answer does not depend on the model. |
| AnswerGenerator.AnswerShape | src/answer_generator.py:90-112 | Sources are reported exactly when there are documents and the model replied, one per document. A replied answer has no whitespace at either end. |

## Left out

- Embedding and nearest-neighbour search are outside the model. `ann` stands for them and only promises at most n hits, for distinct ids of the collection. Distances and their order are not modelled.
- BM25 scoring is outside the model. `bm25` only promises one score per indexed document.
- Retriever.BuildKeywordIndex: when every stored summary is empty or only whitespace, the index is built over empty token lists, as `BM25Okapi` receives them in the source. What the library does with a corpus that has no terms (src/retriever.py:41-42) is not modelled: `bm25` still returns one score per document.
- `np.argsort` tie order is left open: `argsort` may order equal scores either way, so keyword results with equal scores are in no promised order.
- Floating point: scores are exact reals, so `1/(k + rank)` and its sums carry no rounding.
- Retriever.Tokenize: `lower()` is modelled for ASCII letters only; Python's full Unicode case mapping is not.
- VectorStore.AddDocuments: requires fresh, distinct ids, standing in for uuid4, which is not modelled. It also requires each item's chosen summary to be text the encoder accepts. A `None` summary or image bytes reach the encoder, whose failure is not modelled.
- VectorStore.AddDocuments: an item without a `page` or `type` key raises `KeyError` in the source (src/vector_store.py:76-77, 87-88); `ContentItem` always carries both, so that error is not modelled. An item whose `metadata` key holds `None` has `None` stored as its metadata; `Metadata` is a map and cannot hold `None`, so that case is not modelled either.
- VectorStore.ChosenSummary: defined only for items the encoder accepts. An item whose summary key holds `None` makes Python pick `None`, which goes to the encoder, and the encoder's behaviour is not modelled. The same holds when the summary key is absent and the content is `None` or image bytes. `VectorStore.StoredOf` has the same precondition.
- VectorStore.FormatHits: the case of a hit whose id is missing from the content store (`original_content` is `None`) does not occur. The store invariant keeps the collection and the content store on the same ids.
- The `if ids` guard of `add_documents` is modelled only through its effect: an empty batch changes nothing (`VectorStore.AddNothing`).
- Negative `k`, `top_k` and `max_length` are not modelled: they are `nat`. Python would slice from the end.
- AnswerGenerator.GenerateAnswer: the model sees the formatted context and the query, not the prompt text around them. The prompt wording is not modelled.
- Pages are integers and cells are text or `None`. Other Python values in these fields, and their `str` forms, are not modelled.
- PDF parsing (`process`, `_extract_image_fitz`), the summariser, and the Streamlit application (`app.py`) are outside the model. They are I/O and calls into libraries.
- Collection creation and deletion in `reset` are modelled only by their result, an empty collection. Errors from the database client are not modelled.
- The code has no concurrency, so none is modelled.

=== FILE: answer_generator.dfy ===
/** The local logic of `AnswerGenerator` in src/answer_generator.py: the
    context text handed to the language model, the per-source content
    preview, and the shape of the answer around the model call. The model is
    a parameter that either replies with text or raises with a message. */
module AnswerGenerator {
  import opened Strings
  import opened Records

  /** The keys of a retrieved document the generator reads, each of which may
      be absent, `None`, or a value. */
  datatype DocView = DocView(kind: Slot<string>, page: Slot<int>, original: Slot<Payload>)

  // ---------------------------------------------------------------------------
  // The context
  // ---------------------------------------------------------------------------

  /** The body shown for an image instead of its bytes. */
  const ImageNote: string := "(Diagram/image description available - see source details)"

  /** `{page_num}` with `doc.get('page', '?')`. */
  function PageText(page: Slot<int>): string
  {
    match page
    case Missing => "?"
    case Null => "None"
    case Val(n) => IntToString(n)
  }

  /** `{original_content}` with `doc.get('original_content')`: an absent key
      reads as `None`. */
  function ContentText(original: Slot<Payload>): string
  {
    match original
    case Val(p) => PayloadText(p)
    case _ => "None"
  }

  /** The type label after the page: ", Text", ", Table", ", Image", or nothing
      for any other type, including an absent one (read as 'unknown') and `None`. */
  function Label(kind: Slot<string>): (r: string)
    ensures kind == Val(TextKind) ==> r == ", Text"
    ensures kind == Val(TableKind) ==> r == ", Table"
    ensures kind == Val(ImageKind) ==> r == ", Image"
    ensures kind != Val(TextKind) && kind != Val(TableKind) && kind != Val(ImageKind) ==> r == ""
  {
    if kind == Val(TextKind) then ", Text"
    else if kind == Val(TableKind) then ", Table"
    else if kind == Val(ImageKind) then ", Image"
    else ""
  }

  /** The context block of source number `i`: a header line naming the source,
      its page and its type, then the original content, or for an image a
      fixed note. */
  function Block(i: nat, d: DocView): string
  {
    "[Source " + NatToString(i) + " - Page " + PageText(d.page) + Label(d.kind) + "]\n"
      + (if d.kind == Val(ImageKind) then ImageNote else ContentText(d.original))
  }

  /** The blocks of the sources, numbered from 1. */
  function Blocks(docs: seq<DocView>): (r: seq<string>)
    ensures |r| == |docs|
    ensures forall i :: 0 <= i < |docs| ==> r[i] == Block(i + 1, docs[i])
  {
    seq(|docs|, i requires 0 <= i < |docs| => Block(i + 1, docs[i]))
  }

  /** Each element followed by the spacer `gap`. */
  function Spaced<T>(xs: seq<T>, gap: T): (r: seq<T>)
    ensures |r| == 2 * |xs|
  {
    if |xs| == 0 then [] else Spaced(xs[..|xs| - 1], gap) + [xs[|xs| - 1], gap]
  }

  /** Position 2i of the spaced list holds element i and position 2i + 1 the spacer. */
  lemma {:induction false} SpacedAt<T>(xs: seq<T>, gap: T, i: nat)
    requires i < |xs|
    ensures Spaced(xs, gap)[2 * i] == xs[i]
    ensures Spaced(xs, gap)[2 * i + 1] == gap
  {
    var n := |xs|;
    if i < n - 1 {
      SpacedAt(xs[..n - 1], gap, i);
    }
  }

  /** Spacing one more element appends it and a spacer. */
  lemma SpacedSnoc<T>(xs: seq<T>, x: T, gap: T)
    ensures Spaced(xs + [x], gap) == Spaced(xs, gap) + [x] + [gap]
  {
    assert (xs + [x])[..|xs|] == xs;
  }

  /** The list of context parts: each source's block, numbered from 1,
      followed by an empty spacer part. */
  function ContextParts(docs: seq<DocView>): (r: seq<string>)
    ensures |r| == 2 * |docs|
  {
    Spaced(Blocks(docs), "")
  }

  /** Part 2i is the block of source i + 1 and part 2i + 1 is empty. */
  lemma ContextPartsAt(docs: seq<DocView>, i: nat)
    requires i < |docs|
    ensures ContextParts(docs)[2 * i] == Block(i + 1, docs[i])
    ensures ContextParts(docs)[2 * i + 1] == ""
  {
    SpacedAt(Blocks(docs), "", i);
  }

  /** `_format_context`: the parts for sources numbered from 1, joined by newlines. */
  function FormatContext(docs: seq<DocView>): (r: string)
    ensures |docs| == 0 <==> r == ""
  {
    var parts := ContextParts(docs);
    JoinHead(parts, "\n");
    Join(parts, "\n")
  }

  /** Adding one more source adds its block and a spacer to the parts. */
  lemma PartsSnoc(docs: seq<DocView>, d: DocView)
    ensures ContextParts(docs + [d]) == ContextParts(docs) + [Block(|docs| + 1, d)] + [""]
  {
    assert Blocks(docs + [d]) == Blocks(docs) + [Block(|docs| + 1, d)];
    SpacedSnoc(Blocks(docs), Block(|docs| + 1, d), "");
  }

  /** Adding one more source extends the context by a newline, the new block
      (numbered one past the previous sources) and its trailing newline. */
  lemma FormatContextSnoc(docs: seq<DocView>, d: DocView)
    ensures FormatContext(docs + [d]) ==
      if |docs| == 0 then Block(1, d) + "\n"
      else FormatContext(docs) + "\n" + Block(|docs| + 1, d) + "\n"
  {
    var parts := ContextParts(docs);
    var b := Block(|docs| + 1, d);
    PartsSnoc(docs, d);
    if |docs| == 0 {
      assert parts + [b] + [""] == [b, ""];
      assert [b, ""][1..] == [""];
      assert Join([b, ""], "\n") == b + "\n" + Join([""], "\n");
    } else {
      JoinAppend(parts, b, "\n");
      JoinAppend(parts + [b], "", "\n");
    }
  }

  /** The block of an image does not depend on its original content. */
  lemma ImageBlockHidesContent(i: nat, d: DocView, other: Slot<Payload>)
    requires d.kind == Val(ImageKind)
    ensures Block(i, d) == Block(i, d.(original := other))
  {
  }

  /** Two source lists that differ only in the original content of images
      give the same context: image bytes never reach the model. */
  lemma ContextHidesImageContent(docs: seq<DocView>, docs': seq<DocView>)
    requires |docs| == |docs'|
    requires forall i :: 0 <= i < |docs| ==>
      docs[i] == docs'[i] || (docs[i].kind == Val(ImageKind) && docs'[i] == docs[i].(original := docs'[i].original))
    ensures ContextParts(docs) == ContextParts(docs')
    ensures FormatContext(docs) == FormatContext(docs')
  {
    forall i | 0 <= i < |docs| ensures Blocks(docs)[i] == Blocks(docs')[i] {
      if docs[i] != docs'[i] {
        ImageBlockHidesContent(i + 1, docs[i], docs'[i].original);
      }
    }
    assert Blocks(docs) == Blocks(docs');
  }

  // ---------------------------------------------------------------------------
  // Content previews
  // ---------------------------------------------------------------------------

  /** The preview of an image. */
  const ImagePreview: string := "[Image/Diagram]"

  /** The preview length `generate_answer` uses. */
  const PreviewLength: nat := 200

  /** `str(doc.get('original_content', ''))`: an absent key reads as "", a
      `None` value as "None". */
  function PreviewSource(original: Slot<Payload>): string
  {
    match original
    case Missing => ""
    case Null => "None"
    case Val(p) => PayloadText(p)
  }

  /** The table preview: the first at most three lines of `s`, with "..."
      appended when that is not all of `s`. */
  function TablePreview(s: string): (r: string)
  {
    var lines := Split(s, '\n');
    var head := Join(lines[..Min(3, |lines|)], "\n");
    if |s| > |head| then head + "..." else head
  }

  /** The text preview: `s` itself when at most `maxLength` characters long,
      else its first `maxLength` characters and "...". */
  function TextPreview(s: string, maxLength: nat): (r: string)
    ensures |r| <= maxLength + 3
    ensures |s| <= maxLength ==> r == s
    ensures |s| > maxLength ==> |r| == maxLength + 3
    ensures |s| > maxLength ==> r[..maxLength] == s[..maxLength] && r[maxLength..] == "..."
  {
    if |s| > maxLength then s[..maxLength] + "..." else s
  }

  /** `_get_content_preview`: by the type read with `doc.get('type', '')`. */
  function ContentPreview(d: DocView, maxLength: nat): (r: string)
    ensures d.kind == Val(ImageKind) ==> r == ImagePreview
    ensures d.kind == Val(TableKind) ==> r == TablePreview(PreviewSource(d.original))
    ensures d.kind != Val(ImageKind) && d.kind != Val(TableKind) ==> r == TextPreview(PreviewSource(d.original), maxLength)
    ensures d.kind != Val(ImageKind) && d.kind != Val(TableKind) ==> |r| <= maxLength + 3
  {
    var s := PreviewSource(d.original);
    if d.kind == Val(ImageKind) then ImagePreview
    else if d.kind == Val(TableKind) then TablePreview(s)
    else TextPreview(s, maxLength)
  }

  /** The table preview's lines are a prefix of the content; "..." is added
      exactly when the content has a fourth line, and a content of at most
      three lines is shown whole. */
  lemma TablePreviewIsPrefix(s: string)
    ensures var lines := Split(s, '\n');
      var head := Join(lines[..Min(3, |lines|)], "\n");
      && |head| <= |s| && head == s[..|head|]
      && (|s| > |head| <==> Count(s, '\n') >= 3)
      && (Count(s, '\n') < 3 ==> TablePreview(s) == s)
      && (Count(s, '\n') >= 3 ==> TablePreview(s) == head + "...")
  {
    var lines := Split(s, '\n');
    var m := Min(3, |lines|);
    var head := Join(lines[..m], "\n");
    SplitLength(s, '\n');
    JoinSplit(s, '\n');
    JoinPrefix(lines, "\n", m);
    assert s == head + (if m < |lines| then "\n" + Join(lines[m..], "\n") else "");
  }

  // ---------------------------------------------------------------------------
  // The answer
  // ---------------------------------------------------------------------------

  /** What the model call does: return text, or raise with a message. */
  datatype Reply = Replied(text: string) | Raised(message: string)

  /** One entry of `sources`: `page`, `type` and `original_content` read with
      `doc.get`, and the preview. */
  datatype Source = Source(page: Option<int>, kind: Option<string>, preview: string, original: Option<Payload>)

  datatype Answer = Answer(answer: string, sources: seq<Source>)

  const NoInformation: string := "I couldn't find any relevant information to answer your question."
  const ErrorPrefix: string := "Error generating answer: "

  /** `doc.get(key)`: absent and `None` both read as `None`. */
  function Get<T>(v: Slot<T>): (r: Option<T>)
    ensures v.Val? <==> r.Some?
    ensures v.Val? ==> r.value == v.value
  {
    if v.Val? then Some(v.value) else None
  }

  /** The sources list: one entry per document, in order. */
  function Sources(docs: seq<DocView>): (r: seq<Source>)
    ensures |r| == |docs|
    ensures forall i :: 0 <= i < |docs| ==>
      && r[i].page == Get(docs[i].page)
      && r[i].kind == Get(docs[i].kind)
      && r[i].original == Get(docs[i].original)
      && r[i].preview == ContentPreview(docs[i], PreviewLength)
  {
    seq(|docs|, i requires 0 <= i < |docs| =>
      Source(Get(docs[i].page), Get(docs[i].kind), ContentPreview(docs[i], PreviewLength), Get(docs[i].original)))
  }

  /** `generate_answer`: the fixed answer when nothing was retrieved; else the
      model is asked about the formatted context and the query (the prompt
      wording around them is not modelled), and its stripped reply is
      returned with the sources, or its error message without sources. */
  function GenerateAnswer(query: string, docs: seq<DocView>, model: (string, string) -> Reply): (r: Answer)
    ensures |docs| == 0 ==> r == Answer(NoInformation, [])
    ensures |docs| > 0 && model(FormatContext(docs), query).Raised? ==>
      r == Answer(ErrorPrefix + model(FormatContext(docs), query).message, [])
    ensures |docs| > 0 && model(FormatContext(docs), query).Replied? ==>
      && r.answer == Strip(model(FormatContext(docs), query).text)
      && r.sources == Sources(docs)
  {
    if |docs| == 0 then Answer(NoInformation, [])
    else
      match model(FormatContext(docs), query)
      case Replied(text) => Answer(Strip(text), Sources(docs))
      case Raised(message) => Answer(ErrorPrefix + message, [])
  }

  /** With nothing retrieved the model is not consulted: any two models give
      the same answer. */
  lemma EmptyRetrievalIgnoresModel(query: string, m1: (string, string) -> Reply, m2: (string, string) -> Reply)
    ensures GenerateAnswer(query, [], m1) == GenerateAnswer(query, [], m2)
  {
  }

  /** Sources are reported exactly when the model replied, one per document,
      and a replied answer carries no surrounding whitespace. */
  lemma AnswerShape(query: string, docs: seq<DocView>, model: (string, string) -> Reply)
    ensures var r := GenerateAnswer(query, docs, model);
      && (|r.sources| > 0 <==> |docs| > 0 && model(FormatContext(docs), query).Replied?)
      && (|r.sources| > 0 ==> |r.sources| == |docs|)
      && (|r.sources| > 0 && |r.answer| > 0 ==> !IsSpace(r.answer[0]) && !IsSpace(r.answer[|r.answer| - 1]))
  {
    if |docs| > 0 && model(FormatContext(docs), query).Replied? {
      StripIsTrimmedSlice(model(FormatContext(docs), query).text);
    }
  }
}

=== FILE: document_processor.dfy ===
/** The pure parts of `DocumentProcessor` in src/document_processor.py: the
    rendering of an extracted table as a GitHub Flavored Markdown pipe table
    (section 4.10 of the GFM specification; cells are not escaped), and the
    flattening of the extracted text blocks, tables and images into one list. */
module DocumentProcessor {
  import opened Strings
  import opened Records

  // ---------------------------------------------------------------------------
  // Tables
  // ---------------------------------------------------------------------------

  /** A table cell as the PDF table extractor reports it: text or `None`. */
  type Cell = Option<string>

  /** A table as a list of rows; rows may differ in length. */
  type Table = seq<seq<Cell>>

  /** `str(cell) if cell is not None else ""`. */
  function CleanCell(c: Cell): string
  {
    match c
    case Some(t) => t
    case None => ""
  }

  /** One cleaned row: each cell's text, `None` read as "". */
  function CleanRow(row: seq<Cell>): (r: seq<string>)
    ensures |r| == |row|
    ensures forall i :: 0 <= i < |row| ==> r[i] == (if row[i].Some? then row[i].value else "")
  {
    seq(|row|, i requires 0 <= i < |row| => CleanCell(row[i]))
  }

  /** The padding loop and the `row[:len(header)]` slice: the row brought to
      exactly `w` cells, cut when longer, padded with "" when shorter. */
  function Fit(row: seq<string>, w: nat): (r: seq<string>)
    ensures |r| == w
    ensures forall i :: 0 <= i < w ==> r[i] == (if i < |row| then row[i] else "")
  {
    if |row| >= w then row[..w] else row + seq(w - |row|, _ => "")
  }

  /** One pipe-table line: `"| " + " | ".join(cells) + " |"`. */
  function Line(cells: seq<string>): string
  {
    "| " + Join(cells, " | ") + " |"
  }

  /** `["---"] * n`. */
  function Dashes(n: nat): (r: seq<string>)
    ensures |r| == n
    ensures forall i :: 0 <= i < n ==> r[i] == "---"
  {
    seq(n, _ => "---")
  }

  /** The body lines: one per row after the header, fitted to width `w`. */
  function BodyLines(rows: seq<seq<Cell>>, w: nat): (r: seq<string>)
    ensures |r| == |rows|
    ensures forall i :: 0 <= i < |rows| ==> r[i] == Line(Fit(CleanRow(rows[i]), w))
  {
    seq(|rows|, i requires 0 <= i < |rows| => Line(Fit(CleanRow(rows[i]), w)))
  }

  /** The lines of the rendered table: the header line, the delimiter line
      with one `---` per header cell, then one line per further row with
      exactly as many cells as the header. */
  function MarkdownLines(t: Table): (lines: seq<string>)
    requires |t| > 0
    ensures |lines| == |t| + 1
    ensures lines[0] == Line(CleanRow(t[0]))
    ensures lines[1] == Line(Dashes(|t[0]|))
    ensures forall i :: 1 <= i < |t| ==> lines[i + 1] == Line(Fit(CleanRow(t[i]), |t[0]|))
  {
    var w := |t[0]|;
    var body := BodyLines(t[1..], w);
    var lines := [Line(CleanRow(t[0])), Line(Dashes(w))] + body;
    assert forall i :: 1 <= i < |t| ==> lines[i + 1] == body[i - 1] && t[1..][i - 1] == t[i];
    lines
  }

  /** `_table_to_markdown`: "" for an empty table, else the lines joined by newlines. */
  function TableToMarkdown(t: Table): (r: string)
    ensures |t| == 0 <==> r == ""
  {
    if |t| == 0 then ""
    else
      var lines := MarkdownLines(t);
      JoinHead(lines, "\n");
      Join(lines, "\n")
  }

  /** No cell of the table contains the character. */
  predicate CellsAvoid(t: Table, c: char)
  {
    forall i, j :: 0 <= i < |t| && 0 <= j < |t[i]| && t[i][j].Some? ==> c !in t[i][j].value
  }

  /** A line built from cells without `c` has no `c`, when `c` is not a
      character of the line syntax. */
  lemma LineAvoids(cells: seq<string>, c: char)
    requires c != '|' && c != ' '
    requires forall x :: x in cells ==> c !in x
    ensures c !in Line(cells)
  {
    JoinAvoids(cells, " | ", c);
  }

  /** A cleaned row of cells without `c`, fitted to any width, avoids `c`. */
  lemma FittedRowAvoids(t: Table, i: nat, w: nat, c: char)
    requires i < |t| && CellsAvoid(t, c)
    ensures forall x :: x in Fit(CleanRow(t[i]), w) ==> c !in x
  {
    var r := Fit(CleanRow(t[i]), w);
    forall x | x in r ensures c !in x {
      var j :| 0 <= j < |r| && r[j] == x;
    }
  }

  /** Each line of a table whose cells avoid `c` avoids `c`. */
  lemma LineOfTableAvoids(t: Table, k: nat, c: char)
    requires |t| > 0 && CellsAvoid(t, c) && c != '|' && c != ' ' && c != '-'
    requires k < |t| + 1
    ensures c !in MarkdownLines(t)[k]
  {
    var w := |t[0]|;
    if k == 0 {
      FittedRowAvoids(t, 0, w, c);
      assert Fit(CleanRow(t[0]), w) == CleanRow(t[0]);
      LineAvoids(CleanRow(t[0]), c);
    } else if k == 1 {
      LineAvoids(Dashes(w), c);
    } else {
      FittedRowAvoids(t, k - 1, w, c);
      LineAvoids(Fit(CleanRow(t[k - 1]), w), c);
    }
  }

  /** When no cell contains a newline, the rendered table splits back into
      exactly its lines: one more line than the table has rows. */
  lemma TableLines(t: Table)
    requires |t| > 0 && CellsAvoid(t, '\n')
    ensures Split(TableToMarkdown(t), '\n') == MarkdownLines(t)
    ensures |Split(TableToMarkdown(t), '\n')| == |t| + 1
  {
    var lines := MarkdownLines(t);
    assert forall l :: l in lines ==> '\n' !in l by {
      forall l | l in lines ensures '\n' !in l {
        var k :| 0 <= k < |lines| && lines[k] == l;
        LineOfTableAvoids(t, k, '\n');
      }
    }
    SplitJoin(lines, '\n');
  }

  /** A line of `n` cells without a pipe holds `n + 1` pipes (two when empty):
      its column count is read off its pipes. */
  lemma LinePipes(cells: seq<string>)
    requires forall x :: x in cells ==> '|' !in x
    ensures Count(Line(cells), '|') == (if |cells| == 0 then 2 else |cells| + 1)
  {
    var j := Join(cells, " | ");
    CountConcat("| ", j, '|');
    CountConcat("| " + j, " |", '|');
    assert Count(" | ", '|') == 1;
    if |cells| > 0 {
      JoinCount(cells, " | ", '|');
    }
  }

  /** When no cell contains a pipe, every line of the rendered table has the
      same number of pipes as the header line: every row has the header's
      number of columns. */
  lemma TableIsRectangular(t: Table)
    requires |t| > 0 && CellsAvoid(t, '|')
    ensures forall k :: 0 <= k < |MarkdownLines(t)| ==>
      Count(MarkdownLines(t)[k], '|') == Count(MarkdownLines(t)[0], '|')
  {
    var lines := MarkdownLines(t);
    var w := |t[0]|;
    FittedRowAvoids(t, 0, w, '|');
    assert Fit(CleanRow(t[0]), w) == CleanRow(t[0]);
    LinePipes(CleanRow(t[0]));
    forall k | 0 <= k < |lines| ensures Count(lines[k], '|') == Count(lines[0], '|') {
      if k == 1 {
        LinePipes(Dashes(w));
      } else if k > 1 {
        FittedRowAvoids(t, k - 1, w, '|');
        LinePipes(Fit(CleanRow(t[k - 1]), w));
      }
    }
  }

  // ---------------------------------------------------------------------------
  // Flattening
  // ---------------------------------------------------------------------------

  /** What extraction collected: text blocks, tables and images, each in
      page order. */
  datatype Extraction = Extraction(
    textBlocks: seq<ContentItem>,
    tables: seq<ContentItem>,
    images: seq<ContentItem>)

  /** `get_all_content`: the text blocks, then the tables, then the images. */
  function GetAllContent(e: Extraction): (r: seq<ContentItem>)
    ensures |r| == |e.textBlocks| + |e.tables| + |e.images|
    ensures r[..|e.textBlocks|] == e.textBlocks
    ensures r[|e.textBlocks|..|e.textBlocks| + |e.tables|] == e.tables
    ensures r[|e.textBlocks| + |e.tables|..] == e.images
  {
    var r := e.textBlocks + e.tables + e.images;
    assert r[..|e.textBlocks|] == e.textBlocks;
    assert r[|e.textBlocks|..|e.textBlocks| + |e.tables|] == e.tables;
    r
  }

  /** The items of one content type, in order. */
  function OfKind(items: seq<ContentItem>, kind: string): seq<ContentItem>
  {
    if |items| == 0 then []
    else (if items[0].kind == kind then [items[0]] else []) + OfKind(items[1..], kind)
  }

  lemma {:induction false} OfKindConcat(a: seq<ContentItem>, b: seq<ContentItem>, kind: string)
    ensures OfKind(a + b, kind) == OfKind(a, kind) + OfKind(b, kind)
  {
    if |a| == 0 {
      assert a + b == b;
    } else {
      var head := if a[0].kind == kind then [a[0]] else [];
      assert (a + b)[1..] == a[1..] + b;
      assert OfKind(a + b, kind) == head + OfKind(a[1..] + b, kind);
      OfKindConcat(a[1..], b, kind);
      assert OfKind(a, kind) == head + OfKind(a[1..], kind);
    }
  }

  /** Selecting a type from items all of that type keeps them all; from items
      of other types, none. */
  lemma {:induction false} OfKindUniform(items: seq<ContentItem>, kind: string, other: string)
    requires forall i :: 0 <= i < |items| ==> items[i].kind == other
    ensures other == kind ==> OfKind(items, kind) == items
    ensures other != kind ==> OfKind(items, kind) == []
  {
    if |items| > 0 {
      OfKindUniform(items[1..], kind, other);
      assert items == [items[0]] + items[1..];
    }
  }

  /** The extractor tags text blocks "text", tables "table" and images "image". */
  predicate Tagged(e: Extraction)
  {
    && (forall i :: 0 <= i < |e.textBlocks| ==> e.textBlocks[i].kind == TextKind)
    && (forall i :: 0 <= i < |e.tables| ==> e.tables[i].kind == TableKind)
    && (forall i :: 0 <= i < |e.images| ==> e.images[i].kind == ImageKind)
  }

  /** The flat list loses nothing: selecting each content type from it gives
      back exactly the list extraction collected for that type. */
  lemma AllContentByKind(e: Extraction)
    requires Tagged(e)
    ensures OfKind(GetAllContent(e), TextKind) == e.textBlocks
    ensures OfKind(GetAllContent(e), TableKind) == e.tables
    ensures OfKind(GetAllContent(e), ImageKind) == e.images
  {
    var all := GetAllContent(e);
    assert all == e.textBlocks + e.tables + e.images;
    OfKindConcat(e.textBlocks + e.tables, e.images, TextKind);
    OfKindConcat(e.textBlocks + e.tables, e.images, TableKind);
    OfKindConcat(e.textBlocks + e.tables, e.images, ImageKind);
    OfKindConcat(e.textBlocks, e.tables, TextKind);
    OfKindConcat(e.textBlocks, e.tables, TableKind);
    OfKindConcat(e.textBlocks, e.tables, ImageKind);
    OfKindUniform(e.textBlocks, TextKind, TextKind);
    OfKindUniform(e.textBlocks, TableKind, TextKind);
    OfKindUniform(e.textBlocks, ImageKind, TextKind);
    OfKindUniform(e.tables, TextKind, TableKind);
    OfKindUniform(e.tables, TableKind, TableKind);
    OfKindUniform(e.tables, ImageKind, TableKind);
    OfKindUniform(e.images, TextKind, ImageKind);
    OfKindUniform(e.images, TableKind, ImageKind);
    OfKindUniform(e.images, ImageKind, ImageKind);
  }
}

=== FILE: rank_fusion.dfy ===
/** Reciprocal Rank Fusion, `Retriever.reciprocal_rank_fusion` in
    src/retriever.py. An id at 1-based rank r of a list contributes 1/(k + r);
    contributions are summed over the lists; the ids are then ordered by the
    sum, highest first, ties keeping the order in which the ids were first
    seen. Scores are exact reals. */
module RankFusion {
  import opened Records

  type Rank = r: int | r >= 1 witness 1

  /** `1 / (k + rank)`. */
  function Contribution(k: nat, rank: Rank): real
  {
    1.0 / ((k + rank) as real)
  }

  // ---------------------------------------------------------------------------
  // Reference definitions: what the fused ranking is meant to be
  // ---------------------------------------------------------------------------

  /** The lists one after the other: the records in the order the loop meets them. */
  function Flatten(lists: seq<seq<Candidate>>): seq<Candidate>
  {
    if |lists| == 0 then [] else Flatten(lists[..|lists| - 1]) + lists[|lists| - 1]
  }

  /** The sum of 1/(k + r) over the 1-based positions r of `l` that hold `id`. */
  function ListScore(l: seq<Candidate>, k: nat, id: Id): real
  {
    if |l| == 0 then 0.0
    else ListScore(l[..|l| - 1], k, id) + (if l[|l| - 1].id == id then Contribution(k, |l|) else 0.0)
  }

  /** The reciprocal-rank score of `id`: its list scores summed over all lists. */
  function FusedScore(lists: seq<seq<Candidate>>, k: nat, id: Id): real
  {
    if |lists| == 0 then 0.0
    else FusedScore(lists[..|lists| - 1], k, id) + ListScore(lists[|lists| - 1], k, id)
  }

  /** The position of the first record carrying `id`. */
  function FirstPos(s: seq<Candidate>, id: Id): (p: nat)
    requires id in IdsOf(s)
    ensures p < |s| && s[p].id == id
    ensures forall q :: 0 <= q < p ==> s[q].id != id
  {
    assert IdsOf(s) == [s[0].id] + IdsOf(s[1..]);
    if s[0].id == id then 0 else FirstPos(s[1..], id) + 1
  }

  /** What the fused output must be: every id of the inputs exactly once, each
      with the first record seen for it and its reciprocal-rank score, ordered
      by score (highest first) and, among equal scores, by first appearance. */
  ghost predicate IsRrfRanking(lists: seq<seq<Candidate>>, k: nat, r: seq<Fused>)
  {
    var s := Flatten(lists);
    && Distinct(FusedIds(r))
    && (forall i :: 0 <= i < |r| ==> r[i].record.id in IdsOf(s))
    && (forall id :: id in IdsOf(s) ==> id in FusedIds(r))
    && (forall i :: 0 <= i < |r| ==> r[i].rrfScore == FusedScore(lists, k, r[i].record.id))
    && (forall i :: 0 <= i < |r| ==> r[i].record == s[FirstPos(s, r[i].record.id)])
    && (forall i, j :: 0 <= i < j < |r| ==> r[i].rrfScore >= r[j].rrfScore)
    && (forall i, j :: 0 <= i < j < |r| && r[i].rrfScore == r[j].rrfScore ==>
          FirstPos(s, r[i].record.id) < FirstPos(s, r[j].record.id))
  }

  // ---------------------------------------------------------------------------
  // The accumulation loop
  // ---------------------------------------------------------------------------

  /** One iteration of the nested loop: a record with its 1-based rank in its list. */
  datatype Visit = Visit(record: Candidate, rank: Rank)

  /** `enumerate(results, start=1)`. */
  function Enumerate(l: seq<Candidate>): seq<Visit>
  {
    seq(|l|, i requires 0 <= i < |l| => Visit(l[i], i + 1))
  }

  /** Everything the nested loop visits: each list in turn, each list in order. */
  function Visits(lists: seq<seq<Candidate>>): seq<Visit>
  {
    if |lists| == 0 then [] else Visits(lists[..|lists| - 1]) + Enumerate(lists[|lists| - 1])
  }

  function RecordsOf(vs: seq<Visit>): seq<Candidate>
  {
    seq(|vs|, i requires 0 <= i < |vs| => vs[i].record)
  }

  /** The contributions the visits make to `id`'s score. */
  function VisitScore(vs: seq<Visit>, k: nat, id: Id): real
  {
    if |vs| == 0 then 0.0
    else
      var v := vs[|vs| - 1];
      VisitScore(vs[..|vs| - 1], k, id) + (if v.record.id == id then Contribution(k, v.rank) else 0.0)
  }

  /** The loop's state: `doc_scores` (with its insertion order) and `doc_info`. */
  datatype Tally = Tally(order: seq<Id>, scores: map<Id, real>, info: map<Id, Candidate>)

  /** The loop body: an id seen for the first time gets score 0 and its record is
      kept; every sight then adds 1/(k + rank). */
  function Step(t: Tally, v: Visit, k: nat): Tally
  {
    var id := v.record.id;
    if id !in t.scores then
      Tally(t.order + [id], t.scores[id := 0.0 + Contribution(k, v.rank)], t.info[id := v.record])
    else
      Tally(t.order, t.scores[id := t.scores[id] + Contribution(k, v.rank)], t.info)
  }

  /** The loop invariant: after the visits `vs`, the tally lists each id seen so
      far once, in order of first sight, with its summed contributions and the
      first record seen for it. */
  ghost predicate Summarises(t: Tally, vs: seq<Visit>, k: nat)
  {
    var s := RecordsOf(vs);
    OrderMatch(t, s) && KeysMatch(t, s) && ScoresMatch(t, vs, k) && InfoMatch(t, s)
  }

  ghost predicate OrderMatch(t: Tally, s: seq<Candidate>)
  {
    && Distinct(t.order)
    && (forall id :: id in t.order <==> id in IdsOf(s))
    && (forall i, j :: 0 <= i < j < |t.order| ==> FirstPos(s, t.order[i]) < FirstPos(s, t.order[j]))
  }

  ghost predicate KeysMatch(t: Tally, s: seq<Candidate>)
  {
    && (forall id :: id in t.scores <==> id in IdsOf(s))
    && (forall id :: id in t.info <==> id in IdsOf(s))
  }

  ghost predicate ScoresMatch(t: Tally, vs: seq<Visit>, k: nat)
  {
    forall id :: id in t.scores ==> t.scores[id] == VisitScore(vs, k, id)
  }

  ghost predicate InfoMatch(t: Tally, s: seq<Candidate>)
  {
    forall id :: id in t.info && id in IdsOf(s) ==> t.info[id] == s[FirstPos(s, id)]
  }

  /** A first sight appends the id at the end of the first-sight order. */
  lemma FirstPosExtend(s: seq<Candidate>, x: Candidate, id: Id)
    requires id in IdsOf(s + [x])
    ensures id in IdsOf(s) ==> FirstPos(s + [x], id) == FirstPos(s, id)
    ensures id !in IdsOf(s) ==> id == x.id && FirstPos(s + [x], id) == |s|
  {
    assert forall i :: 0 <= i < |s| ==> (s + [x])[i] == s[i] && IdsOf(s)[i] == s[i].id;
    if id in IdsOf(s) {
      var q := FirstPos(s, id);
      assert (s + [x])[q] == s[q];
    }
  }

  lemma StepOrder(t: Tally, s: seq<Candidate>, x: Candidate, k: nat, rank: Rank)
    requires OrderMatch(t, s) && KeysMatch(t, s)
    ensures OrderMatch(Step(t, Visit(x, rank), k), s + [x])
  {
    IdsOfSnoc(s, x);
    if x.id !in t.scores {
      StepOrderNew(t.order, s, x);
    } else {
      StepOrderSeen(t.order, s, x);
    }
  }

  lemma StepOrderNew(order: seq<Id>, s: seq<Candidate>, x: Candidate)
    requires Distinct(order)
    requires forall id :: id in order <==> id in IdsOf(s)
    requires forall i, j :: 0 <= i < j < |order| ==> FirstPos(s, order[i]) < FirstPos(s, order[j])
    requires x.id !in IdsOf(s)
    requires IdsOf(s + [x]) == IdsOf(s) + [x.id]
    ensures Distinct(order + [x.id])
    ensures forall i, j :: 0 <= i < j < |order| + 1 ==>
      FirstPos(s + [x], (order + [x.id])[i]) < FirstPos(s + [x], (order + [x.id])[j])
  {
    var o := order + [x.id];
    forall i, j | 0 <= i < j < |o| ensures o[i] != o[j] {
      assert o[i] == order[i] && order[i] in order;
    }
    forall i, j | 0 <= i < j < |o| ensures FirstPos(s + [x], o[i]) < FirstPos(s + [x], o[j]) {
      assert o[i] == order[i] && order[i] in order;
      FirstPosExtend(s, x, o[i]);
      FirstPosExtend(s, x, o[j]);
      if j < |order| {
        assert o[j] == order[j] && order[j] in order;
      }
    }
  }

  lemma StepOrderSeen(order: seq<Id>, s: seq<Candidate>, x: Candidate)
    requires forall id :: id in order <==> id in IdsOf(s)
    requires forall i, j :: 0 <= i < j < |order| ==> FirstPos(s, order[i]) < FirstPos(s, order[j])
    requires x.id in IdsOf(s)
    requires IdsOf(s + [x]) == IdsOf(s) + [x.id]
    ensures forall i, j :: 0 <= i < j < |order| ==> FirstPos(s + [x], order[i]) < FirstPos(s + [x], order[j])
  {
    forall i, j | 0 <= i < j < |order| ensures FirstPos(s + [x], order[i]) < FirstPos(s + [x], order[j]) {
      assert order[i] in order && order[j] in order;
      FirstPosExtend(s, x, order[i]);
      FirstPosExtend(s, x, order[j]);
    }
  }

  lemma StepKeysAndInfo(t: Tally, s: seq<Candidate>, x: Candidate, k: nat, rank: Rank)
    requires KeysMatch(t, s) && InfoMatch(t, s)
    ensures KeysMatch(Step(t, Visit(x, rank), k), s + [x])
    ensures InfoMatch(Step(t, Visit(x, rank), k), s + [x])
  {
    var t' := Step(t, Visit(x, rank), k);
    var s' := s + [x];
    IdsOfSnoc(s, x);
    forall y | y in t'.info && y in IdsOf(s') ensures t'.info[y] == s'[FirstPos(s', y)] {
      FirstPosExtend(s, x, y);
      if y in IdsOf(s) {
        assert s'[FirstPos(s, y)] == s[FirstPos(s, y)];
      }
    }
  }

  lemma StepScores(t: Tally, vs: seq<Visit>, v: Visit, k: nat)
    requires ScoresMatch(t, vs, k)
    requires forall id :: id in t.scores <==> id in IdsOf(RecordsOf(vs))
    ensures ScoresMatch(Step(t, v, k), vs + [v], k)
  {
    assert (vs + [v])[..|vs|] == vs;
    if v.record.id !in t.scores {
      forall id | id in IdsOf(RecordsOf(vs)) ensures id != v.record.id { }
      ZeroScoreWhenUnseen(vs, k, v.record.id);
    }
  }

  lemma {:induction false} ZeroScoreWhenUnseen(vs: seq<Visit>, k: nat, id: Id)
    requires id !in IdsOf(RecordsOf(vs))
    ensures VisitScore(vs, k, id) == 0.0
  {
    if |vs| > 0 {
      var init := vs[..|vs| - 1];
      assert IdsOf(RecordsOf(init)) == IdsOf(RecordsOf(vs))[..|vs| - 1];
      assert IdsOf(RecordsOf(vs))[|vs| - 1] == vs[|vs| - 1].record.id;
      ZeroScoreWhenUnseen(init, k, id);
    }
  }

  lemma StepPreserves(t: Tally, vs: seq<Visit>, v: Visit, k: nat)
    requires Summarises(t, vs, k)
    ensures Summarises(Step(t, v, k), vs + [v], k)
  {
    var s := RecordsOf(vs);
    assert RecordsOf(vs + [v]) == s + [v.record];
    StepOrder(t, s, v.record, k, v.rank);
    StepKeysAndInfo(t, s, v.record, k, v.rank);
    StepScores(t, vs, v, k);
  }

  /** The whole loop, a left fold of `Step` over the visits. */
  function Accumulate(vs: seq<Visit>, k: nat): (t: Tally)
    ensures Summarises(t, vs, k)
  {
    if |vs| == 0 then Tally([], map[], map[])
    else
      var init, last := vs[..|vs| - 1], vs[|vs| - 1];
      InitLast(vs);
      var t := Accumulate(init, k);
      StepPreserves(t, init, last, k);
      Step(t, last, k)
  }

  // ---------------------------------------------------------------------------
  // The visits compute the reference scores
  // ---------------------------------------------------------------------------

  lemma {:induction false} VisitScoreConcat(a: seq<Visit>, b: seq<Visit>, k: nat, id: Id)
    ensures VisitScore(a + b, k, id) == VisitScore(a, k, id) + VisitScore(b, k, id)
  {
    if |b| > 0 {
      VisitScoreConcat(a, b[..|b| - 1], k, id);
      assert (a + b)[..|a + b| - 1] == a + b[..|b| - 1];
      assert (a + b)[|a + b| - 1] == b[|b| - 1];
    } else {
      assert a + b == a;
    }
  }

  lemma {:induction false} EnumerateScore(l: seq<Candidate>, k: nat, id: Id)
    ensures VisitScore(Enumerate(l), k, id) == ListScore(l, k, id)
  {
    if |l| > 0 {
      EnumerateScore(l[..|l| - 1], k, id);
      assert Enumerate(l)[..|l| - 1] == Enumerate(l[..|l| - 1]);
    }
  }

  lemma {:induction false} VisitsMeaning(lists: seq<seq<Candidate>>, k: nat)
    ensures RecordsOf(Visits(lists)) == Flatten(lists)
    ensures forall id :: VisitScore(Visits(lists), k, id) == FusedScore(lists, k, id)
  {
    if |lists| > 0 {
      var init := lists[..|lists| - 1];
      var last := lists[|lists| - 1];
      VisitsMeaning(init, k);
      assert RecordsOf(Enumerate(last)) == last;
      assert RecordsOf(Visits(init) + Enumerate(last)) == RecordsOf(Visits(init)) + RecordsOf(Enumerate(last));
      forall id ensures VisitScore(Visits(lists), k, id) == FusedScore(lists, k, id) {
        VisitScoreConcat(Visits(init), Enumerate(last), k, id);
        EnumerateScore(last, k, id);
      }
    }
  }

  // ---------------------------------------------------------------------------
  // The sort: `sorted(doc_scores.items(), key=score, reverse=True)`
  // ---------------------------------------------------------------------------

  /** An id with its summed score and its position in first-sight order. */
  datatype Entry = Entry(id: Id, score: real, seen: nat)

  /** `a` comes strictly before `b` in a stable descending sort. */
  predicate Before(a: Entry, b: Entry)
  {
    a.score > b.score || (a.score == b.score && a.seen < b.seen)
  }

  predicate Ranked(s: seq<Entry>)
  {
    forall i, j :: 0 <= i < j < |s| ==> Before(s[i], s[j])
  }

  /** Inserts `x`, seen after every entry of `s`, behind every entry whose score is
      at least its own. */
  function Insert(s: seq<Entry>, x: Entry): (r: seq<Entry>)
    requires Ranked(s)
    requires forall e :: e in s ==> e.seen < x.seen
    ensures Ranked(r)
    ensures multiset(r) == multiset(s) + multiset{x}
  {
    if |s| == 0 || s[|s| - 1].score >= x.score then
      AppendRanked(s, x);
      s + [x]
    else
      var r' := Insert(s[..|s| - 1], x);
      InsertBehind(s, x, r');
      r' + [s[|s| - 1]]
  }

  lemma AppendRanked(s: seq<Entry>, x: Entry)
    requires Ranked(s)
    requires forall e :: e in s ==> e.seen < x.seen
    requires |s| == 0 || s[|s| - 1].score >= x.score
    ensures Ranked(s + [x])
  {
    forall i, j | 0 <= i < j < |s| + 1 ensures Before((s + [x])[i], (s + [x])[j]) {
      if j == |s| {
        assert s[i] in s;
        if i < |s| - 1 {
          assert Before(s[i], s[|s| - 1]);
        }
      }
    }
  }

  lemma InsertBehind(s: seq<Entry>, x: Entry, r': seq<Entry>)
    requires Ranked(s) && |s| > 0 && s[|s| - 1].score < x.score
    requires Ranked(r') && multiset(r') == multiset(s[..|s| - 1]) + multiset{x}
    ensures Ranked(r' + [s[|s| - 1]])
    ensures multiset(r' + [s[|s| - 1]]) == multiset(s) + multiset{x}
  {
    var last := s[|s| - 1];
    var init := s[..|s| - 1];
    assert s == init + [last];
    forall i | 0 <= i < |r'| ensures Before(r'[i], last) {
      assert r'[i] in multiset(r');
      if r'[i] != x {
        assert r'[i] in multiset(init);
        var a :| 0 <= a < |init| && init[a] == r'[i];
        assert Before(s[a], s[|s| - 1]);
      }
    }
  }

  /** A stable sort by score, highest first, of entries listed in first-sight order. */
  function SortDesc(s: seq<Entry>): (r: seq<Entry>)
    requires forall i, j :: 0 <= i < j < |s| ==> s[i].seen < s[j].seen
    ensures Ranked(r)
    ensures multiset(r) == multiset(s)
  {
    if |s| == 0 then []
    else
      var init := s[..|s| - 1];
      InitLast(s);
      var sorted := SortDesc(init);
      assert forall e :: e in sorted ==> e in multiset(init);
      Insert(sorted, s[|s| - 1])
  }

  // ---------------------------------------------------------------------------
  // The fusion
  // ---------------------------------------------------------------------------

  /** The `doc_scores` items in insertion order, each with its position. */
  function Entries(t: Tally): (e: seq<Entry>)
    requires forall id :: id in t.order ==> id in t.scores
  {
    seq(|t.order|, i requires 0 <= i < |t.order| => Entry(t.order[i], t.scores[t.order[i]], i))
  }

  /** `reciprocal_rank_fusion(results_list, k)`: accumulate, sort, and copy each
      id's first-seen record with `rrf_score` added. */
  function Rrf(lists: seq<seq<Candidate>>, k: nat): (r: seq<Fused>)
    ensures IsRrfRanking(lists, k, r)
  {
    var vs := Visits(lists);
    var t := Accumulate(vs, k);
    var entries := Entries(t);
    var ranked := SortDesc(entries);
    RankedEntriesKnown(t, vs, k, ranked);
    var r := seq(|ranked|, i requires 0 <= i < |ranked| => Fused(t.info[ranked[i].id], ranked[i].score));
    FusionMeetsSpec(lists, k, t, ranked, r);
    r
  }

  lemma RankedEntriesKnown(t: Tally, vs: seq<Visit>, k: nat, ranked: seq<Entry>)
    requires Summarises(t, vs, k)
    requires multiset(ranked) == multiset(Entries(t))
    ensures forall i :: 0 <= i < |ranked| ==> ranked[i].seen < |t.order|
    ensures forall i :: 0 <= i < |ranked| ==> ranked[i] == Entries(t)[ranked[i].seen]
    ensures forall i :: 0 <= i < |ranked| ==> ranked[i].id in t.info && ranked[i].id in t.order
  {
    var e := Entries(t);
    forall i | 0 <= i < |ranked|
      ensures ranked[i].seen < |t.order| && ranked[i] == e[ranked[i].seen]
      ensures ranked[i].id in t.info && ranked[i].id in t.order
    {
      assert ranked[i] in multiset(ranked);
      assert ranked[i] in e;
      var a :| 0 <= a < |e| && e[a] == ranked[i];
      assert t.order[a] in t.order;
    }
  }

  lemma FusionMeetsSpec(lists: seq<seq<Candidate>>, k: nat, t: Tally, ranked: seq<Entry>, r: seq<Fused>)
    requires Summarises(t, Visits(lists), k)
    requires Ranked(ranked) && multiset(ranked) == multiset(Entries(t))
    requires forall i :: 0 <= i < |ranked| ==> ranked[i].id in t.info
    requires |r| == |ranked|
    requires forall i :: 0 <= i < |r| ==> r[i] == Fused(t.info[ranked[i].id], ranked[i].score)
    ensures IsRrfRanking(lists, k, r)
  {
    FusionIds(lists, k, t, ranked, r);
    FusionScores(lists, k, t, ranked, r);
    FusionRecords(lists, k, t, ranked, r);
    FusionOrder(lists, k, t, ranked, r);
  }

  /** The fused ids are the distinct ids of the input lists. */
  lemma FusionIds(lists: seq<seq<Candidate>>, k: nat, t: Tally, ranked: seq<Entry>, r: seq<Fused>)
    requires Summarises(t, Visits(lists), k)
    requires Ranked(ranked) && multiset(ranked) == multiset(Entries(t))
    requires forall i :: 0 <= i < |ranked| ==> ranked[i].id in t.info
    requires |r| == |ranked|
    requires forall i :: 0 <= i < |r| ==> r[i] == Fused(t.info[ranked[i].id], ranked[i].score)
    ensures Distinct(FusedIds(r))
    ensures forall i :: 0 <= i < |r| ==> r[i].record.id in IdsOf(Flatten(lists))
    ensures forall id :: id in IdsOf(Flatten(lists)) ==> id in FusedIds(r)
  {
    var vs := Visits(lists);
    VisitsMeaning(lists, k);
    RankedEntriesKnown(t, vs, k, ranked);
    FusedIdsDistinct(t.order, Entries(t), ranked, FusedIds(r));
    FusedIdsCover(t.order, Entries(t), ranked, FusedIds(r));
  }

  /** Each fused score is the reference sum. */
  lemma FusionScores(lists: seq<seq<Candidate>>, k: nat, t: Tally, ranked: seq<Entry>, r: seq<Fused>)
    requires Summarises(t, Visits(lists), k)
    requires Ranked(ranked) && multiset(ranked) == multiset(Entries(t))
    requires forall i :: 0 <= i < |ranked| ==> ranked[i].id in t.info
    requires |r| == |ranked|
    requires forall i :: 0 <= i < |r| ==> r[i] == Fused(t.info[ranked[i].id], ranked[i].score)
    ensures forall i :: 0 <= i < |r| ==> r[i].rrfScore == FusedScore(lists, k, r[i].record.id)
  {
    var vs := Visits(lists);
    VisitsMeaning(lists, k);
    RankedEntriesKnown(t, vs, k, ranked);
    forall i | 0 <= i < |r| ensures r[i].rrfScore == FusedScore(lists, k, r[i].record.id) {
      assert ranked[i].score == t.scores[ranked[i].id];
    }
  }

  /** Each fused record is the first one seen for its id. */
  lemma FusionRecords(lists: seq<seq<Candidate>>, k: nat, t: Tally, ranked: seq<Entry>, r: seq<Fused>)
    requires Summarises(t, Visits(lists), k)
    requires Ranked(ranked) && multiset(ranked) == multiset(Entries(t))
    requires forall i :: 0 <= i < |ranked| ==> ranked[i].id in t.info
    requires |r| == |ranked|
    requires forall i :: 0 <= i < |r| ==> r[i] == Fused(t.info[ranked[i].id], ranked[i].score)
    ensures forall i :: 0 <= i < |r| ==>
      r[i].record.id in IdsOf(Flatten(lists)) &&
      r[i].record == Flatten(lists)[FirstPos(Flatten(lists), r[i].record.id)]
  {
    var vs := Visits(lists);
    VisitsMeaning(lists, k);
    RankedEntriesKnown(t, vs, k, ranked);
  }

  /** Scores descend, ties in order of first appearance. */
  lemma FusionOrder(lists: seq<seq<Candidate>>, k: nat, t: Tally, ranked: seq<Entry>, r: seq<Fused>)
    requires Summarises(t, Visits(lists), k)
    requires Ranked(ranked) && multiset(ranked) == multiset(Entries(t))
    requires forall i :: 0 <= i < |ranked| ==> ranked[i].id in t.info
    requires |r| == |ranked|
    requires forall i :: 0 <= i < |r| ==> r[i] == Fused(t.info[ranked[i].id], ranked[i].score)
    ensures forall i, j :: 0 <= i < j < |r| ==> r[i].rrfScore >= r[j].rrfScore
    ensures forall i, j :: 0 <= i < j < |r| && r[i].rrfScore == r[j].rrfScore ==>
      r[i].record.id in IdsOf(Flatten(lists)) && r[j].record.id in IdsOf(Flatten(lists)) &&
      FirstPos(Flatten(lists), r[i].record.id) < FirstPos(Flatten(lists), r[j].record.id)
  {
    var vs := Visits(lists);
    var s := Flatten(lists);
    VisitsMeaning(lists, k);
    RankedEntriesKnown(t, vs, k, ranked);
    assert OrderMatch(t, s);
    assert forall i :: 0 <= i < |ranked| ==> ranked[i].id == t.order[ranked[i].seen] by {
      forall i | 0 <= i < |ranked| ensures ranked[i].id == t.order[ranked[i].seen] {
        assert ranked[i] == Entries(t)[ranked[i].seen];
      }
    }
    FusedTies(t.order, s, ranked, r);
  }

  lemma FusedIdsDistinct(order: seq<Id>, e: seq<Entry>, ranked: seq<Entry>, ids: seq<Id>)
    requires Distinct(order) && |e| == |order|
    requires forall a :: 0 <= a < |e| ==> e[a].id == order[a] && e[a].seen == a
    requires Ranked(ranked)
    requires forall i :: 0 <= i < |ranked| ==> ranked[i].seen < |e| && ranked[i] == e[ranked[i].seen]
    requires |ids| == |ranked| && forall i :: 0 <= i < |ids| ==> ids[i] == ranked[i].id
    ensures Distinct(ids)
  {
    forall i, j | 0 <= i < j < |ids| ensures ids[i] != ids[j] {
      assert Before(ranked[i], ranked[j]);
    }
  }

  lemma FusedIdsCover(order: seq<Id>, e: seq<Entry>, ranked: seq<Entry>, ids: seq<Id>)
    requires |e| == |order|
    requires forall a :: 0 <= a < |e| ==> e[a].id == order[a]
    requires multiset(ranked) == multiset(e)
    requires |ids| == |ranked| && forall i :: 0 <= i < |ids| ==> ids[i] == ranked[i].id
    ensures forall id :: id in order ==> id in ids
    ensures forall i :: 0 <= i < |ids| ==> ids[i] in order
  {
    forall id | id in order ensures id in ids {
      var a :| 0 <= a < |order| && order[a] == id;
      assert e[a] in multiset(e);
      assert e[a] in ranked;
      var i :| 0 <= i < |ranked| && ranked[i] == e[a];
      assert ids[i] == id;
    }
    forall i | 0 <= i < |ids| ensures ids[i] in order {
      assert ranked[i] in multiset(ranked);
      assert ranked[i] in e;
      var a :| 0 <= a < |e| && e[a] == ranked[i];
    }
  }

  lemma FusedTies(order: seq<Id>, s: seq<Candidate>, ranked: seq<Entry>, r: seq<Fused>)
    requires forall id :: id in order ==> id in IdsOf(s)
    requires forall a, b :: 0 <= a < b < |order| ==> FirstPos(s, order[a]) < FirstPos(s, order[b])
    requires Ranked(ranked)
    requires forall i :: 0 <= i < |ranked| ==> ranked[i].seen < |order| && ranked[i].id == order[ranked[i].seen]
    requires |r| == |ranked|
    requires forall i :: 0 <= i < |r| ==> r[i].record.id == ranked[i].id && r[i].rrfScore == ranked[i].score
    ensures forall i, j :: 0 <= i < j < |r| ==> r[i].rrfScore >= r[j].rrfScore
    ensures forall i, j :: 0 <= i < j < |r| && r[i].rrfScore == r[j].rrfScore ==>
      r[i].record.id in IdsOf(s) && r[j].record.id in IdsOf(s) &&
      FirstPos(s, r[i].record.id) < FirstPos(s, r[j].record.id)
  {
    forall i, j | 0 <= i < j < |r| ensures r[i].rrfScore >= r[j].rrfScore {
      assert Before(ranked[i], ranked[j]);
    }
    forall i, j | 0 <= i < j < |r| && r[i].rrfScore == r[j].rrfScore
      ensures r[i].record.id in IdsOf(s) && r[j].record.id in IdsOf(s)
      ensures FirstPos(s, r[i].record.id) < FirstPos(s, r[j].record.id)
    {
      assert Before(ranked[i], ranked[j]);
      assert order[ranked[i].seen] in order && order[ranked[j].seen] in order;
    }
  }

  // ---------------------------------------------------------------------------
  // Properties of the scores
  // ---------------------------------------------------------------------------

  /** A list that does not hold the id contributes nothing. */
  lemma {:induction false} ListScoreAbsent(l: seq<Candidate>, k: nat, id: Id)
    requires id !in IdsOf(l)
    ensures ListScore(l, k, id) == 0.0
  {
    if |l| > 0 {
      assert IdsOf(l[..|l| - 1]) == IdsOf(l)[..|l| - 1];
      ListScoreAbsent(l[..|l| - 1], k, id);
      assert IdsOf(l)[|l| - 1] == l[|l| - 1].id;
    }
  }

  /** A list that holds the id once, at 0-based position p, contributes 1/(k + p + 1). */
  lemma {:induction false} ListScoreOnce(l: seq<Candidate>, k: nat, id: Id, p: nat)
    requires p < |l| && l[p].id == id
    requires forall q :: 0 <= q < |l| && q != p ==> l[q].id != id
    ensures ListScore(l, k, id) == Contribution(k, p + 1)
  {
    var init := l[..|l| - 1];
    if p == |l| - 1 {
      forall q | 0 <= q < |init| ensures IdsOf(init)[q] != id {
        assert init[q] == l[q];
      }
      ListScoreAbsent(init, k, id);
    } else {
      ListScoreOnce(init, k, id, p);
    }
  }

  /** A list that holds the id contributes a positive amount. */
  lemma {:induction false} ListScorePositive(l: seq<Candidate>, k: nat, id: Id)
    requires id in IdsOf(l)
    ensures ListScore(l, k, id) > 0.0
  {
    var init := l[..|l| - 1];
    ListScoreNonNegative(init, k, id);
    if l[|l| - 1].id != id {
      var q :| 0 <= q < |l| && IdsOf(l)[q] == id;
      assert IdsOf(init)[q] == id;
      ListScorePositive(init, k, id);
    }
  }

  lemma {:induction false} ListScoreNonNegative(l: seq<Candidate>, k: nat, id: Id)
    ensures ListScore(l, k, id) >= 0.0
  {
    if |l| > 0 {
      ListScoreNonNegative(l[..|l| - 1], k, id);
    }
  }

  /** An id has a positive fused score exactly when it occurs in some list:
      absence from a list costs nothing, presence anywhere counts. */
  lemma {:induction false} FusedScorePositiveIffPresent(lists: seq<seq<Candidate>>, k: nat, id: Id)
    ensures FusedScore(lists, k, id) >= 0.0
    ensures FusedScore(lists, k, id) > 0.0 <==> id in IdsOf(Flatten(lists))
  {
    if |lists| > 0 {
      var init := lists[..|lists| - 1];
      var last := lists[|lists| - 1];
      FusedScorePositiveIffPresent(init, k, id);
      ListScoreNonNegative(last, k, id);
      assert IdsOf(Flatten(lists)) == IdsOf(Flatten(init)) + IdsOf(last);
      if id in IdsOf(last) {
        ListScorePositive(last, k, id);
      } else {
        ListScoreAbsent(last, k, id);
      }
    }
  }

  /** A later rank contributes less. */
  lemma ContributionDecreases(k: nat, a: Rank, b: Rank)
    requires a <= b
    ensures 0.0 < Contribution(k, b) <= Contribution(k, a)
  {
    var x, y := (k + a) as real, (k + b) as real;
    assert 0.0 < x <= y;
    assert 1.0 / y <= 1.0 / x by {
      assert (1.0 / y) * x <= (1.0 / y) * y;
    }
  }

  /** A list without repeated ids contributes at most what its first rank is worth. */
  lemma ListScoreAtMostFirst(l: seq<Candidate>, k: nat, id: Id)
    requires Distinct(IdsOf(l))
    ensures ListScore(l, k, id) <= Contribution(k, 1)
  {
    if id in IdsOf(l) {
      var p :| 0 <= p < |l| && IdsOf(l)[p] == id;
      forall q | 0 <= q < |l| && q != p ensures l[q].id != id {
        assert IdsOf(l)[q] == l[q].id;
      }
      ListScoreOnce(l, k, id, p);
      ContributionDecreases(k, 1, p + 1);
    } else {
      ListScoreAbsent(l, k, id);
      ContributionDecreases(k, 1, 1);
    }
  }

  lemma SumBound(a: real, b: real, n: nat, c: real)
    requires a <= (n as real) * c && b <= c
    ensures a + b <= ((n + 1) as real) * c
  {
  }

  /** With every list free of repeats, a fused score is at most the number of
      lists times 1/(k + 1): first place in every list. */
  lemma {:induction false} FusedScoreAtMost(lists: seq<seq<Candidate>>, k: nat, id: Id)
    requires forall i :: 0 <= i < |lists| ==> Distinct(IdsOf(lists[i]))
    ensures FusedScore(lists, k, id) <= (|lists| as real) * Contribution(k, 1)
  {
    if |lists| > 0 {
      var init := lists[..|lists| - 1];
      var last := lists[|lists| - 1];
      assert forall i :: 0 <= i < |init| ==> Distinct(IdsOf(init[i])) by {
        assert forall i :: 0 <= i < |init| ==> init[i] == lists[i];
      }
      FusedScoreAtMost(init, k, id);
      ListScoreAtMostFirst(last, k, id);
      SumBound(FusedScore(init, k, id), ListScore(last, k, id), |init|, Contribution(k, 1));
    }
  }

  // ---------------------------------------------------------------------------
  // The worked example: k = 60, [A, B, C] and [B, C, D] fuse to B, C, A, D
  // ---------------------------------------------------------------------------

  function Labelled(id: Id): Candidate
  {
    Candidate(id, Bm25(1.0), id, None, None, None, map[])
  }

  lemma WorkedExample()
    ensures var l1 := [Labelled("A"), Labelled("B"), Labelled("C")];
            var l2 := [Labelled("B"), Labelled("C"), Labelled("D")];
            FusedIds(Rrf([l1, l2], 60)) == ["B", "C", "A", "D"]
  {
    var l1 := [Labelled("A"), Labelled("B"), Labelled("C")];
    var l2 := [Labelled("B"), Labelled("C"), Labelled("D")];
    var r := Rrf([l1, l2], 60);
    ExampleIds(l1, l2);
    ScoresOfExample(l1, l2);
    RankingFacts([l1, l2], 60, r);
    OrderOfFour(FusedIds(r), RrfScores(r), "B", "C", "A", "D",
      FusedScore([l1, l2], 60, "B"), FusedScore([l1, l2], 60, "C"),
      FusedScore([l1, l2], 60, "A"), FusedScore([l1, l2], 60, "D"));
  }

  function RrfScores(r: seq<Fused>): seq<real>
  {
    seq(|r|, i requires 0 <= i < |r| => r[i].rrfScore)
  }

  /** The parts of the ranking contract that fix the order of ids. */
  lemma RankingFacts(lists: seq<seq<Candidate>>, k: nat, r: seq<Fused>)
    requires IsRrfRanking(lists, k, r)
    ensures Distinct(FusedIds(r))
    ensures forall x :: x in FusedIds(r) <==> x in IdsOf(Flatten(lists))
    ensures forall i, j :: 0 <= i < j < |r| ==> RrfScores(r)[i] >= RrfScores(r)[j]
    ensures forall i :: 0 <= i < |r| ==> RrfScores(r)[i] == FusedScore(lists, k, FusedIds(r)[i])
  {
    var ids := FusedIds(r);
    forall x | x in ids ensures x in IdsOf(Flatten(lists)) {
      var i :| 0 <= i < |ids| && ids[i] == x;
    }
  }

  /** Fusion never produces more results than the lists hold together. */
  lemma RankingLength(lists: seq<seq<Candidate>>, k: nat, r: seq<Fused>)
    requires IsRrfRanking(lists, k, r)
    ensures |r| <= |Flatten(lists)|
  {
    var ids := FusedIds(r);
    var all := IdsOf(Flatten(lists));
    DistinctCard(ids);
    SeqSetCard(all);
    assert (set x | x in ids) <= (set x | x in all) by {
      forall x | x in ids ensures x in all {
        var i :| 0 <= i < |ids| && ids[i] == x;
      }
    }
    SubsetCard(set x | x in ids, set x | x in all);
  }

  lemma ExampleIds(l1: seq<Candidate>, l2: seq<Candidate>)
    requires l1 == [Labelled("A"), Labelled("B"), Labelled("C")]
    requires l2 == [Labelled("B"), Labelled("C"), Labelled("D")]
    ensures forall x :: x in IdsOf(Flatten([l1, l2])) <==> x == "B" || x == "C" || x == "A" || x == "D"
  {
    FlattenTwo(l1, l2);
    assert IdsOf(l1 + l2) == ["A", "B", "C", "B", "C", "D"];
  }

  /** Four distinct ids with strictly decreasing scores, listed in non-increasing
      score order, are listed in exactly that order. */
  lemma OrderOfFour(ids: seq<Id>, sc: seq<real>, a: Id, b: Id, c: Id, d: Id,
                    fa: real, fb: real, fc: real, fd: real)
    requires |ids| == |sc| && Distinct(ids)
    requires forall x :: x in ids <==> x == a || x == b || x == c || x == d
    requires a != b && a != c && a != d && b != c && b != d && c != d
    requires forall i, j :: 0 <= i < j < |sc| ==> sc[i] >= sc[j]
    requires forall i :: 0 <= i < |ids| && ids[i] == a ==> sc[i] == fa
    requires forall i :: 0 <= i < |ids| && ids[i] == b ==> sc[i] == fb
    requires forall i :: 0 <= i < |ids| && ids[i] == c ==> sc[i] == fc
    requires forall i :: 0 <= i < |ids| && ids[i] == d ==> sc[i] == fd
    requires fa > fb > fc > fd
    ensures ids == [a, b, c, d]
  {
    DistinctCard(ids);
    assert (set x | x in ids) == {a, b, c, d};
    assert |ids| == 4;
    var ia :| 0 <= ia < 4 && ids[ia] == a;
    var ib :| 0 <= ib < 4 && ids[ib] == b;
    var ic :| 0 <= ic < 4 && ids[ic] == c;
    var id :| 0 <= id < 4 && ids[id] == d;
    assert ia < ib < ic < id;
  }

  lemma FlattenTwo(l1: seq<Candidate>, l2: seq<Candidate>)
    ensures Flatten([l1, l2]) == l1 + l2
  {
    assert [l1, l2][..1] == [l1];
    assert [l1][..0] == [];
    assert Flatten([l1]) == l1;
  }

  lemma FusedScoreOfTwo(l1: seq<Candidate>, l2: seq<Candidate>, k: nat, id: Id)
    ensures FusedScore([l1, l2], k, id) == ListScore(l1, k, id) + ListScore(l2, k, id)
  {
    assert [l1, l2][..1] == [l1];
    assert [l1][..0] == [];
    assert FusedScore([l1], k, id) == FusedScore([], k, id) + ListScore(l1, k, id);
    assert FusedScore([l1, l2], k, id) == FusedScore([l1], k, id) + ListScore(l2, k, id);
  }

  lemma ScoresOfExample(l1: seq<Candidate>, l2: seq<Candidate>)
    requires l1 == [Labelled("A"), Labelled("B"), Labelled("C")]
    requires l2 == [Labelled("B"), Labelled("C"), Labelled("D")]
    ensures FusedScore([l1, l2], 60, "A") == 1.0 / 61.0
    ensures FusedScore([l1, l2], 60, "B") == 1.0 / 62.0 + 1.0 / 61.0
    ensures FusedScore([l1, l2], 60, "C") == 1.0 / 63.0 + 1.0 / 62.0
    ensures FusedScore([l1, l2], 60, "D") == 1.0 / 63.0
  {
    FusedScoreOfTwo(l1, l2, 60, "A");
    FusedScoreOfTwo(l1, l2, 60, "B");
    FusedScoreOfTwo(l1, l2, 60, "C");
    FusedScoreOfTwo(l1, l2, 60, "D");
    ListScoreOnce(l1, 60, "A", 0);
    ListScoreOnce(l1, 60, "B", 1);
    ListScoreOnce(l1, 60, "C", 2);
    assert IdsOf(l1) == ["A", "B", "C"];
    ListScoreAbsent(l1, 60, "D");
    assert IdsOf(l2) == ["B", "C", "D"];
    ListScoreAbsent(l2, 60, "A");
    ListScoreOnce(l2, 60, "B", 0);
    ListScoreOnce(l2, 60, "C", 1);
    ListScoreOnce(l2, 60, "D", 2);
  }

}

=== FILE: records.dfy ===
/** The records that flow between the components: extracted content items,
    stored records, retrieval candidates and fused results. Python passes all
    of these as dictionaries; here each one is a datatype whose fields are the
    dictionary's keys. */
module Records {
  import opened Strings

  /** The opaque document id (a uuid4 string in the system). */
  type Id = string

  datatype Option<+T> = None | Some(value: T)

  /** A dictionary key read with `d.get(key)`: the key may be absent, present
      with `None`, or present with a value. */
  datatype Slot<+T> = Missing | Null | Val(value: T)

  /** The raw payload of a content unit: the text of a text block, the Markdown
      of a table, or the bytes of an image. */
  datatype Payload = Text(text: string) | Blob(bytes: seq<Byte>)

  /** `str(payload)` in Python: a string renders as itself, bytes as their repr. */
  function PayloadText(p: Payload): string
  {
    match p
    case Text(t) => t
    case Blob(b) => BytesRepr(b)
  }

  /** A value in a metadata dictionary. */
  datatype MetaValue = MInt(i: int) | MStr(s: string)

  type Metadata = map<string, MetaValue>

  /** The content-type tags the extractor assigns. */
  const TextKind: string := "text"
  const TableKind: string := "table"
  const ImageKind: string := "image"

  /** One extracted content unit, before or after summarisation: `content`,
      `summary` (added by the summariser), `page`, `type` and `metadata`. */
  datatype ContentItem = ContentItem(
    content: Slot<Payload>,
    summary: Slot<string>,
    page: int,
    kind: string,
    metadata: Metadata)

  /** The value the content store keeps for one id. */
  datatype StoredRecord = StoredRecord(
    original: Option<Payload>,
    summary: string,
    page: int,
    kind: string,
    metadata: Metadata)

  /** The per-method score a candidate carries: the cosine distance of a dense
      hit (`distance`) or the BM25 score of a keyword hit (`score`). */
  datatype Signal = Distance(distance: real) | Bm25(score: real)

  /** One result of dense or keyword search. `None` stands for a key present
      with the value `None`. */
  datatype Candidate = Candidate(
    id: Id,
    signal: Signal,
    document: string,
    original: Option<Payload>,
    page: Option<int>,
    kind: Option<string>,
    metadata: Metadata)

  /** A fused result: the candidate's fields plus `rrf_score`. */
  datatype Fused = Fused(record: Candidate, rrfScore: real)

  /** The ids of a sequence of candidates, in order. */
  function IdsOf(s: seq<Candidate>): seq<Id>
  {
    seq(|s|, i requires 0 <= i < |s| => s[i].id)
  }

  /** The ids of a sequence of fused results, in order. */
  function FusedIds(s: seq<Fused>): seq<Id>
  {
    seq(|s|, i requires 0 <= i < |s| => s[i].record.id)
  }

  /** Appending a candidate appends its id. */
  lemma IdsOfSnoc(s: seq<Candidate>, x: Candidate)
    ensures IdsOf(s + [x]) == IdsOf(s) + [x.id]
  {
  }

  predicate Distinct<T(==)>(s: seq<T>)
  {
    forall i, j :: 0 <= i < j < |s| ==> s[i] != s[j]
  }

  /** A sequence without repeats has as many distinct elements as positions. */
  lemma {:induction false} DistinctCard<T>(s: seq<T>)
    requires Distinct(s)
    ensures |set x | x in s| == |s|
  {
    if |s| > 0 {
      var init := s[..|s| - 1];
      DistinctCard(init);
      assert (set x | x in s) == (set x | x in init) + {s[|s| - 1]};
      assert s[|s| - 1] !in init;
    }
  }

  /** A sequence has no more distinct elements than positions. */
  lemma {:induction false} SeqSetCard<T>(s: seq<T>)
    ensures |set x | x in s| <= |s|
  {
    if |s| > 0 {
      var init := s[..|s| - 1];
      SeqSetCard(init);
      assert (set x | x in s) == (set x | x in init) + {s[|s| - 1]};
    }
  }

  /** A non-empty sequence is its front followed by its last element. */
  lemma InitLast<T>(s: seq<T>)
    requires |s| > 0
    ensures s[..|s| - 1] + [s[|s| - 1]] == s
  {
  }

  /** A subset is no larger than its superset. */
  lemma {:induction false} SubsetCard<T>(a: set<T>, b: set<T>)
    requires a <= b
    ensures |a| <= |b|
    decreases b
  {
    if a != {} {
      var x :| x in a;
      SubsetCard(a - {x}, b - {x});
    }
  }

  function Min(a: int, b: int): int
  {
    if a <= b then a else b
  }
}

=== FILE: retriever.dfy ===
/** Hybrid retrieval, `Retriever` in src/retriever.py: a BM25 keyword index
    built from the summaries in the store, keyword search over it, dense search
    through the store, and the two result lists fused by Reciprocal Rank Fusion
    with k = 60. BM25 scoring and numpy's `argsort` are parameters; the
    properties below hold for every scorer and every sort that meet their
    stated guarantees. */
module Retriever {
  import opened Strings
  import opened Records
  import opened VectorStore
  import opened RankFusion

  /** The RRF constant `retrieve` uses. */
  const FusionK: nat := 60

  // ---------------------------------------------------------------------------
  // Tokenisation
  // ---------------------------------------------------------------------------

  /** `text.lower().split()`: lower-cased, whitespace-separated tokens. */
  function Tokenize(text: string): (r: seq<string>)
    ensures forall w :: w in r ==> IsWord(w) && NoUpper(w)
    ensures |text| == 0 ==> r == []
  {
    LowerFacts(text);
    WordsNoUpper(Lower(text));
    Words(Lower(text))
  }

  /** Tokenising is insensitive to case: lower-casing first changes nothing. */
  lemma TokenizeIgnoresCase(text: string)
    ensures Tokenize(Lower(text)) == Tokenize(text)
  {
    LowerFacts(text);
    LowerFacts(Lower(text));
  }

  /**
   * Any lower-case words, joined with single spaces, tokenise back to
   * exactly those words: the tokenizer keeps every word, in order.
   */
  lemma TokenizeWords(ws: seq<string>)
    requires forall w :: w in ws ==> IsWord(w) && NoUpper(w)
    ensures Tokenize(Join(ws, " ")) == ws
  {
    JoinNoUpper(ws, " ");
    LowerFacts(Join(ws, " "));
    WordsOfJoin(ws);
  }

  /** A run without whitespace is one token: the run, lower-cased. */
  lemma TokenizeOfWord(w: string)
    requires IsWord(w)
    ensures Tokenize(w) == [Lower(w)]
  {
    WordsOfWord(Lower(w));
  }

  /** Any whitespace character splits the text there, be it a space, a
      newline or a tab, and whatever whitespace surrounds it. With
      `TokenizeOfWord` and `Tokenize("") == []` this fixes the tokens of
      every text. */
  lemma TokenizeAtSpace(a: string, c: char, b: string)
    requires IsSpace(c)
    ensures Tokenize(a + [c] + b) == Tokenize(a) + Tokenize(b)
  {
    var l := Lower(a) + [c] + Lower(b);
    assert Lower(a + [c] + b) == l by {
      forall i | 0 <= i < |l| ensures Lower(a + [c] + b)[i] == l[i] {
        if i < |a| {
        } else if i == |a| {
        } else {
          assert (a + [c] + b)[i] == b[i - |a| - 1];
        }
      }
    }
    WordsAtSpace(Lower(a), c, Lower(b));
  }

  /** The tokens, joined back with single spaces, tokenise to themselves. */
  lemma TokensRoundTrip(text: string)
    ensures Tokenize(Join(Tokenize(text), " ")) == Tokenize(text)
  {
    TokenizeWords(Tokenize(text));
  }

  // ---------------------------------------------------------------------------
  // The keyword index
  // ---------------------------------------------------------------------------

  /** The retriever's keyword state: no index yet (`self.bm25` is `None`), or
      the ids, summaries and tokenised summaries the BM25 index was built from. */
  datatype LexicalIndex =
    | NoIndex
    | Built(ids: seq<Id>, summaries: seq<string>, corpus: seq<seq<string>>)

  /** Parallel lists of one length, distinct ids, each corpus entry the tokens
      of its summary. */
  predicate WellFormed(ix: LexicalIndex)
  {
    ix.Built? ==>
      && |ix.summaries| == |ix.ids|
      && |ix.corpus| == |ix.ids|
      && Distinct(ix.ids)
      && (forall i :: 0 <= i < |ix.ids| ==> ix.corpus[i] == Tokenize(ix.summaries[i]))
  }

  /** `ix` is a well-formed index over exactly the documents of `s`, each
      indexed by its stored summary. */
  ghost predicate IndexesStore(ix: LexicalIndex, s: Store)
  {
    && ix.Built?
    && WellFormed(ix)
    && (forall id :: id in ix.ids <==> id in s.content)
    && (forall i :: 0 <= i < |ix.ids| ==> ix.ids[i] in s.content && ix.summaries[i] == s.content[ix.ids[i]].summary)
  }

  /** `_build_keyword_index`: index every stored document by its summary. When
      the store is empty nothing is assigned, so the previous index stays. */
  function BuildKeywordIndex(s: Store, current: LexicalIndex): (r: LexicalIndex)
    ensures |s.order| == 0 ==> r == current
    ensures |s.order| > 0 ==> IndexesStore(r, s)
    ensures WellFormed(current) ==> WellFormed(r)
  {
    var docs := GetAllDocuments(s);
    if |docs| == 0 then current
    else
      var ids := seq(|docs|, i requires 0 <= i < |docs| => docs[i].docId);
      var summaries := seq(|docs|, i requires 0 <= i < |docs| => docs[i].record.summary);
      var corpus := seq(|docs|, i requires 0 <= i < |docs| => Tokenize(summaries[i]));
      assert ids == s.order;
      Built(ids, summaries, corpus)
  }

  /** `Retriever(vector_store)`: the index is built once at construction. */
  function NewRetriever(s: Store): (r: LexicalIndex)
    ensures WellFormed(r)
    ensures |s.order| == 0 <==> r.NoIndex?
    ensures |s.order| > 0 ==> IndexesStore(r, s)
  {
    BuildKeywordIndex(s, NoIndex)
  }

  /** `rebuild_index`. */
  function RebuildIndex(s: Store, current: LexicalIndex): (r: LexicalIndex)
    ensures WellFormed(current) ==> WellFormed(r)
    ensures |s.order| == 0 ==> r == current
    ensures |s.order| > 0 ==> IndexesStore(r, s)
  {
    BuildKeywordIndex(s, current)
  }

  /** Rebuilding twice over the same store is rebuilding once, and the rebuilt
      index does not depend on the previous one unless the store is empty. */
  lemma RebuildIdempotent(s: Store, ix: LexicalIndex, other: LexicalIndex)
    ensures RebuildIndex(s, RebuildIndex(s, ix)) == RebuildIndex(s, ix)
    ensures |s.order| > 0 ==> RebuildIndex(s, ix) == RebuildIndex(s, other)
  {
  }

  // ---------------------------------------------------------------------------
  // The oracles: BM25 scoring and argsort
  // ---------------------------------------------------------------------------

  /** `BM25Okapi(corpus).get_scores(query)`: one score per corpus entry. */
  ghost predicate Bm25Sound(bm25: (seq<seq<string>>, seq<string>) -> seq<real>)
  {
    forall corpus, query :: |bm25(corpus, query)| == |corpus|
  }

  /** Every position of `scores` exactly once, in ascending order of score;
      equal scores may come in any order. */
  predicate SortsAscending(scores: seq<real>, p: seq<nat>)
  {
    && |p| == |scores|
    && (forall i :: 0 <= i < |p| ==> p[i] < |scores|)
    && (forall x :: 0 <= x < |scores| ==> x in p)
    && Distinct(p)
    && (forall i, j :: 0 <= i < j < |p| ==> scores[p[i]] <= scores[p[j]])
  }

  /** `np.argsort(scores)`. */
  ghost predicate ArgsortSound(argsort: seq<real> -> seq<nat>)
  {
    forall scores :: SortsAscending(scores, argsort(scores))
  }

  /** Every position of `scores` exactly once, highest score first. */
  predicate SortsDescending(scores: seq<real>, p: seq<nat>)
  {
    && |p| == |scores|
    && (forall i :: 0 <= i < |p| ==> p[i] < |scores|)
    && (forall x :: 0 <= x < |scores| ==> x in p)
    && Distinct(p)
    && (forall i, j :: 0 <= i < j < |p| ==> scores[p[i]] >= scores[p[j]])
  }

  /** `p[::-1]`. */
  function Reversed(p: seq<nat>): (r: seq<nat>)
    ensures |r| == |p|
    ensures forall i :: 0 <= i < |p| ==> r[i] == p[|p| - 1 - i]
  {
    seq(|p|, i requires 0 <= i < |p| => p[|p| - 1 - i])
  }

  /** Reversing an ascending argsort gives a descending one. */
  lemma ReversedDescends(scores: seq<real>, p: seq<nat>)
    requires SortsAscending(scores, p)
    ensures SortsDescending(scores, Reversed(p))
  {
    var r := Reversed(p);
    forall x | 0 <= x < |scores| ensures x in r {
      assert x in p;
      var i :| 0 <= i < |p| && p[i] == x;
      assert r[|p| - 1 - i] == x;
    }
  }

  // ---------------------------------------------------------------------------
  // Keyword search
  // ---------------------------------------------------------------------------

  predicate Within(p: seq<nat>, n: nat)
  {
    forall i :: 0 <= i < |p| ==> p[i] < n
  }

  ghost predicate NonIncreasing(scores: seq<real>, p: seq<nat>)
    requires Within(p, |scores|)
  {
    forall i, j :: 0 <= i < j < |p| ==> scores[p[i]] >= scores[p[j]]
  }

  /** `p` is `t` with some elements left out: its elements occur in `t` in
      the same relative order. */
  predicate SubsequenceOf(p: seq<nat>, t: seq<nat>)
    decreases |t|
  {
    || |p| == 0
    || (|t| > 0 && ((p[0] == t[0] && SubsequenceOf(p[1..], t[1..])) || SubsequenceOf(p, t[1..])))
  }

  /** The positive-score filter of the result loop: the positions of `top`
      whose score is positive, in the order of `top`. */
  function PositiveOnly(scores: seq<real>, top: seq<nat>): (p: seq<nat>)
    requires Within(top, |scores|)
    ensures |p| <= |top| && Within(p, |scores|)
    ensures forall i :: 0 <= i < |p| ==> scores[p[i]] > 0.0
    ensures forall x :: x in p <==> x in top && x < |scores| && scores[x] > 0.0
    decreases |top|
  {
    if |top| == 0 then []
    else
      var rest := PositiveOnly(scores, top[1..]);
      assert top == [top[0]] + top[1..];
      if scores[top[0]] > 0.0 then [top[0]] + rest else rest
  }

  /** The filter keeps the positions it keeps in the order of `top`. */
  lemma {:induction false} PositiveOnlySubsequence(scores: seq<real>, top: seq<nat>)
    requires Within(top, |scores|)
    ensures SubsequenceOf(PositiveOnly(scores, top), top)
    decreases |top|
  {
    if |top| > 0 {
      PositiveOnlySubsequence(scores, top[1..]);
      var rest := PositiveOnly(scores, top[1..]);
      if scores[top[0]] > 0.0 {
        assert ([top[0]] + rest)[1..] == rest;
      }
    }
  }

  /** When every score in `top` is positive the filter keeps everything. */
  lemma {:induction false} PositiveOnlyKeepsAll(scores: seq<real>, top: seq<nat>)
    requires Within(top, |scores|)
    requires forall i :: 0 <= i < |top| ==> scores[top[i]] > 0.0
    ensures PositiveOnly(scores, top) == top
    decreases |top|
  {
    if |top| > 0 {
      PositiveOnlyKeepsAll(scores, top[1..]);
      assert top == [top[0]] + top[1..];
    }
  }

  /** The filter keeps positions distinct. */
  lemma {:induction false} PositiveOnlyDistinct(scores: seq<real>, top: seq<nat>)
    requires Within(top, |scores|) && Distinct(top)
    ensures Distinct(PositiveOnly(scores, top))
    decreases |top|
  {
    if |top| > 0 {
      PositiveOnlyDistinct(scores, top[1..]);
      var rest := PositiveOnly(scores, top[1..]);
      assert top[0] !in top[1..];
      assert top[0] !in rest;
    }
  }

  /** The filter keeps scores in non-increasing order. */
  lemma {:induction false} PositiveOnlyOrdered(scores: seq<real>, top: seq<nat>)
    requires Within(top, |scores|) && NonIncreasing(scores, top)
    ensures NonIncreasing(scores, PositiveOnly(scores, top))
    decreases |top|
  {
    if |top| > 0 {
      PositiveOnlyOrdered(scores, top[1..]);
      var rest := PositiveOnly(scores, top[1..]);
      if scores[top[0]] > 0.0 {
        LeaderDominates(scores, top, rest);
      }
    }
  }

  /** Putting the first position of an ordered list in front of positions
      drawn from the rest of it keeps the scores in order. */
  lemma LeaderDominates(scores: seq<real>, top: seq<nat>, rest: seq<nat>)
    requires |top| > 0 && Within(top, |scores|) && Within(rest, |scores|)
    requires NonIncreasing(scores, top) && NonIncreasing(scores, rest)
    requires forall x :: x in rest ==> x in top[1..]
    ensures NonIncreasing(scores, [top[0]] + rest)
  {
    var p := [top[0]] + rest;
    forall i, j | 0 <= i < j < |p| ensures scores[p[i]] >= scores[p[j]] {
      if i == 0 {
        assert rest[j - 1] in rest;
        var m :| 0 <= m < |top[1..]| && top[1..][m] == rest[j - 1];
        assert top[m + 1] == p[j];
      } else {
        assert p[i] == rest[i - 1] && p[j] == rest[j - 1];
      }
    }
  }

  /** The positions keyword search reports: the first `k` of the descending
      order, then only those with a positive score. */
  function TopPositions(scores: seq<real>, order: seq<nat>, k: nat): (p: seq<nat>)
    requires SortsDescending(scores, order)
    ensures |p| <= k && Within(p, |scores|) && Distinct(p)
    ensures forall i :: 0 <= i < |p| ==> scores[p[i]] > 0.0
    ensures NonIncreasing(scores, p)
  {
    var top := order[..Min(k, |order|)];
    assert Distinct(top);
    assert NonIncreasing(scores, top);
    PositiveOnlyDistinct(scores, top);
    PositiveOnlyOrdered(scores, top);
    PositiveOnly(scores, top)
  }

  /** Top-k completeness of the positions: a position with a positive score
      that was not reported means `k` positions were, each scoring at least as
      high. */
  lemma TopPositionsComplete(scores: seq<real>, order: seq<nat>, k: nat, x: nat)
    requires SortsDescending(scores, order)
    requires x < |scores| && scores[x] > 0.0
    requires x !in TopPositions(scores, order, k)
    ensures |TopPositions(scores, order, k)| == k
    ensures forall y :: y in TopPositions(scores, order, k) ==> scores[y] >= scores[x]
  {
    var m := Min(k, |order|);
    var top := order[..m];
    var q := TopCutoff(scores, order, m, x);
    assert forall i :: 0 <= i < |top| ==> scores[top[i]] >= scores[x] by {
      forall i | 0 <= i < |top| ensures scores[top[i]] >= scores[x] {
        assert top[i] == order[i];
      }
    }
    PositiveOnlyKeepsAll(scores, top);
    assert forall y :: y in top ==> scores[y] >= scores[x];
  }

  /** A position missing from the first `m` of the order sits at or after `m`. */
  lemma TopCutoff(scores: seq<real>, order: seq<nat>, m: nat, x: nat) returns (q: nat)
    requires SortsDescending(scores, order)
    requires m <= |order| && x < |scores|
    requires x !in PositiveOnly(scores, order[..m]) && scores[x] > 0.0
    ensures m <= q < |order| && order[q] == x
  {
    assert x in order;
    q :| 0 <= q < |order| && order[q] == x;
    assert x !in order[..m];
    assert forall i :: 0 <= i < m ==> order[i] == order[..m][i];
  }

  /** The index position of an id. */
  function PositionOf(ids: seq<Id>, id: Id): (p: nat)
    requires id in ids
    ensures p < |ids| && ids[p] == id
  {
    if ids[0] == id then 0 else 1 + PositionOf(ids[1..], id)
  }

  lemma PositionOfDistinct(ids: seq<Id>, p: nat)
    requires Distinct(ids) && p < |ids|
    ensures PositionOf(ids, ids[p]) == p
  {
  }

  /** One keyword result: the id, its BM25 score and indexed summary, and the
      fields of the record the store holds for the id now (`None` and `{}`
      when it holds none). */
  function KeywordHit(s: Store, ix: LexicalIndex, p: nat, score: real): Candidate
    requires ix.Built? && WellFormed(ix) && p < |ix.ids|
  {
    var id := ix.ids[p];
    match GetOriginalContent(s, id)
    case Some(rec) => Candidate(id, Bm25(score), ix.summaries[p], rec.original, Some(rec.page), Some(rec.kind), rec.metadata)
    case None => Candidate(id, Bm25(score), ix.summaries[p], None, None, None, map[])
  }

  /** A keyword result as it must relate to the index and the store: the
      summary and score of its id's index position, and the id's record in the
      store or nothing. */
  ghost predicate FromIndex(s: Store, ix: LexicalIndex, scores: seq<real>, c: Candidate)
  {
    && ix.Built?
    && c.id in ix.ids
    && var p := PositionOf(ix.ids, c.id);
    && p < |ix.summaries| && p < |scores|
    && c.document == ix.summaries[p]
    && c.signal == Bm25(scores[p])
    && (c.id in s.content ==>
          && c.original == s.content[c.id].original
          && c.page == Some(s.content[c.id].page)
          && c.kind == Some(s.content[c.id].kind)
          && c.metadata == s.content[c.id].metadata)
    && (c.id !in s.content ==>
          c.original == None && c.page == None && c.kind == None && c.metadata == map[])
  }

  /** The BM25 scores of the query against the index. */
  function QueryScores(ix: LexicalIndex, query: string, bm25: (seq<seq<string>>, seq<string>) -> seq<real>): (r: seq<real>)
    requires ix.Built? && WellFormed(ix) && Bm25Sound(bm25)
    ensures |r| == |ix.ids|
  {
    bm25(ix.corpus, Tokenize(query))
  }

  /** `keyword_search`: the best `k` documents by BM25 score, keeping only
      positive scores; nothing when no index was ever built. */
  function KeywordSearch(s: Store, ix: LexicalIndex, query: string, k: nat,
                         bm25: (seq<seq<string>>, seq<string>) -> seq<real>,
                         argsort: seq<real> -> seq<nat>): (r: seq<Candidate>)
    requires WellFormed(ix) && Bm25Sound(bm25) && ArgsortSound(argsort)
    ensures ix.NoIndex? ==> r == []
    ensures |r| <= k
    ensures Distinct(IdsOf(r))
    ensures forall i :: 0 <= i < |r| ==> r[i].signal.Bm25? && r[i].signal.score > 0.0
    ensures forall i, j :: 0 <= i < j < |r| ==> r[i].signal.score >= r[j].signal.score
    ensures forall i :: 0 <= i < |r| ==> FromIndex(s, ix, QueryScores(ix, query, bm25), r[i])
  {
    match ix
    case NoIndex => []
    case Built(ids, summaries, corpus) =>
      var scores := QueryScores(ix, query, bm25);
      ReversedDescends(scores, argsort(scores));
      var p := TopPositions(scores, Reversed(argsort(scores)), k);
      var r := seq(|p|, i requires 0 <= i < |p| => KeywordHit(s, ix, p[i], scores[p[i]]));
      KeywordResultFacts(s, ix, scores, p, r);
      r
  }

  /** One keyword result relates to the index and the store as required. */
  lemma HitFromIndex(s: Store, ix: LexicalIndex, scores: seq<real>, p: nat)
    requires ix.Built? && WellFormed(ix) && |scores| == |ix.ids| && p < |ix.ids|
    ensures FromIndex(s, ix, scores, KeywordHit(s, ix, p, scores[p]))
  {
    PositionOfDistinct(ix.ids, p);
  }

  lemma KeywordResultFacts(s: Store, ix: LexicalIndex, scores: seq<real>, p: seq<nat>, r: seq<Candidate>)
    requires ix.Built? && WellFormed(ix) && |scores| == |ix.ids|
    requires Within(p, |scores|) && Distinct(p) && NonIncreasing(scores, p)
    requires forall i :: 0 <= i < |p| ==> scores[p[i]] > 0.0
    requires |r| == |p|
    requires forall i :: 0 <= i < |p| ==> r[i] == KeywordHit(s, ix, p[i], scores[p[i]])
    ensures Distinct(IdsOf(r))
    ensures forall i :: 0 <= i < |r| ==> r[i].signal.Bm25? && r[i].signal.score > 0.0
    ensures forall i, j :: 0 <= i < j < |r| ==> r[i].signal.score >= r[j].signal.score
    ensures forall i :: 0 <= i < |r| ==> FromIndex(s, ix, scores, r[i])
  {
    assert forall i :: 0 <= i < |r| ==> FromIndex(s, ix, scores, r[i]) by {
      forall i | 0 <= i < |r| ensures FromIndex(s, ix, scores, r[i]) {
        HitFromIndex(s, ix, scores, p[i]);
      }
    }
    assert Distinct(IdsOf(r)) by {
      forall i, j | 0 <= i < j < |r| ensures r[i].id != r[j].id {
        assert p[i] != p[j];
      }
    }
  }

  /** Top-k completeness of keyword search: an indexed document with a
      positive score that is not among the results means the results are full
      (`k` of them), each scoring at least as high. */
  lemma KeywordSearchComplete(s: Store, ix: LexicalIndex, query: string, k: nat,
                              bm25: (seq<seq<string>>, seq<string>) -> seq<real>,
                              argsort: seq<real> -> seq<nat>, x: nat)
    requires WellFormed(ix) && Bm25Sound(bm25) && ArgsortSound(argsort)
    requires ix.Built? && x < |ix.ids| && QueryScores(ix, query, bm25)[x] > 0.0
    requires ix.ids[x] !in IdsOf(KeywordSearch(s, ix, query, k, bm25, argsort))
    ensures var r := KeywordSearch(s, ix, query, k, bm25, argsort);
      && |r| == k
      && forall i :: 0 <= i < |r| ==> r[i].signal.score >= QueryScores(ix, query, bm25)[x]
  {
    var scores := QueryScores(ix, query, bm25);
    ReversedDescends(scores, argsort(scores));
    var order := Reversed(argsort(scores));
    var p := TopPositions(scores, order, k);
    var r := KeywordSearch(s, ix, query, k, bm25, argsort);
    assert |r| == |p|;
    forall i | 0 <= i < |p| ensures p[i] != x {
      assert r[i] == KeywordHit(s, ix, p[i], scores[p[i]]);
      assert IdsOf(r)[i] == ix.ids[p[i]];
    }
    TopPositionsComplete(scores, order, k, x);
    forall i | 0 <= i < |r| ensures r[i].signal.score >= scores[x] {
      assert r[i] == KeywordHit(s, ix, p[i], scores[p[i]]);
      assert p[i] in p;
    }
  }

  // ---------------------------------------------------------------------------
  // Hybrid retrieval
  // ---------------------------------------------------------------------------

  /** `retrieve`: dense and keyword search for twice the wanted number of
      results each, fused by RRF with k = 60, cut to the first `topK`. Each
      result carries its reciprocal-rank score over the two lists, which is
      positive and at most 2/61 (first place in both). */
  function Retrieve(s: Store, ix: LexicalIndex, query: string, topK: nat,
                    ann: (string, nat) -> seq<Hit>,
                    bm25: (seq<seq<string>>, seq<string>) -> seq<real>,
                    argsort: seq<real> -> seq<nat>): (r: seq<Fused>)
    requires AnnSound(s, ann) && WellFormed(ix) && Bm25Sound(bm25) && ArgsortSound(argsort)
    ensures |r| <= topK
    ensures |r| <= |Search(s, query, 2 * topK, ann)| + |KeywordSearch(s, ix, query, 2 * topK, bm25, argsort)|
    ensures Distinct(FusedIds(r))
    ensures forall i :: 0 <= i < |r| ==>
      r[i].record.id in IdsOf(Search(s, query, 2 * topK, ann)) + IdsOf(KeywordSearch(s, ix, query, 2 * topK, bm25, argsort))
    ensures forall i :: 0 <= i < |r| ==>
      r[i].rrfScore == FusedScore(Lists(s, ix, query, topK, ann, bm25, argsort), FusionK, r[i].record.id)
    ensures forall i :: 0 <= i < |r| ==> 0.0 < r[i].rrfScore <= 2.0 / 61.0
    ensures forall i, j :: 0 <= i < j < |r| ==> r[i].rrfScore >= r[j].rrfScore
    ensures var pool := Flatten(Lists(s, ix, query, topK, ann, bm25, argsort));
      forall i :: 0 <= i < |r| ==>
        r[i].record.id in IdsOf(pool) && r[i].record == pool[FirstPos(pool, r[i].record.id)]
    ensures var pool := Flatten(Lists(s, ix, query, topK, ann, bm25, argsort));
      forall i, j :: 0 <= i < j < |r| && r[i].rrfScore == r[j].rrfScore ==>
        && r[i].record.id in IdsOf(pool) && r[j].record.id in IdsOf(pool)
        && FirstPos(pool, r[i].record.id) < FirstPos(pool, r[j].record.id)
  {
    var lists := Lists(s, ix, query, topK, ann, bm25, argsort);
    var fused := Rrf(lists, FusionK);
    var r := fused[..Min(topK, |fused|)];
    PrefixFacts(lists, fused, r);
    ListsIds(s, ix, query, topK, ann, bm25, argsort);
    RankingLength(lists, FusionK, fused);
    FlattenTwo(lists[0], lists[1]);
    r
  }

  /** The two result lists `retrieve` fuses: dense first, keyword second. */
  function Lists(s: Store, ix: LexicalIndex, query: string, topK: nat,
                 ann: (string, nat) -> seq<Hit>,
                 bm25: (seq<seq<string>>, seq<string>) -> seq<real>,
                 argsort: seq<real> -> seq<nat>): (lists: seq<seq<Candidate>>)
    requires AnnSound(s, ann) && WellFormed(ix) && Bm25Sound(bm25) && ArgsortSound(argsort)
    ensures |lists| == 2
    ensures forall i :: 0 <= i < |lists| ==> Distinct(IdsOf(lists[i]))
  {
    [Search(s, query, 2 * topK, ann), KeywordSearch(s, ix, query, 2 * topK, bm25, argsort)]
  }

  /** The ids met by the fusion loop are the dense ids followed by the keyword ids. */
  lemma ListsIds(s: Store, ix: LexicalIndex, query: string, topK: nat,
                 ann: (string, nat) -> seq<Hit>,
                 bm25: (seq<seq<string>>, seq<string>) -> seq<real>,
                 argsort: seq<real> -> seq<nat>)
    requires AnnSound(s, ann) && WellFormed(ix) && Bm25Sound(bm25) && ArgsortSound(argsort)
    ensures IdsOf(Flatten(Lists(s, ix, query, topK, ann, bm25, argsort))) ==
      IdsOf(Search(s, query, 2 * topK, ann)) + IdsOf(KeywordSearch(s, ix, query, 2 * topK, bm25, argsort))
  {
    var dense := Search(s, query, 2 * topK, ann);
    var keyword := KeywordSearch(s, ix, query, 2 * topK, bm25, argsort);
    FlattenTwo(dense, keyword);
    IdsOfConcat(dense, keyword);
  }

  lemma IdsOfConcat(a: seq<Candidate>, b: seq<Candidate>)
    ensures IdsOf(a + b) == IdsOf(a) + IdsOf(b)
  {
  }

  /** A prefix of an RRF ranking of two repeat-free lists keeps the ranking's
      properties. */
  lemma PrefixFacts(lists: seq<seq<Candidate>>, fused: seq<Fused>, r: seq<Fused>)
    requires |lists| == 2 && forall i :: 0 <= i < |lists| ==> Distinct(IdsOf(lists[i]))
    requires IsRrfRanking(lists, FusionK, fused)
    requires |r| <= |fused| && r == fused[..|r|]
    ensures Distinct(FusedIds(r))
    ensures forall i :: 0 <= i < |r| ==> r[i].record.id in IdsOf(Flatten(lists))
    ensures forall i :: 0 <= i < |r| ==> r[i].rrfScore == FusedScore(lists, FusionK, r[i].record.id)
    ensures forall i :: 0 <= i < |r| ==> 0.0 < r[i].rrfScore <= 2.0 / 61.0
    ensures forall i, j :: 0 <= i < j < |r| ==> r[i].rrfScore >= r[j].rrfScore
    ensures var pool := Flatten(lists);
      forall i :: 0 <= i < |r| ==>
        r[i].record.id in IdsOf(pool) && r[i].record == pool[FirstPos(pool, r[i].record.id)]
    ensures var pool := Flatten(lists);
      forall i, j :: 0 <= i < j < |r| && r[i].rrfScore == r[j].rrfScore ==>
        && r[i].record.id in IdsOf(pool) && r[j].record.id in IdsOf(pool)
        && FirstPos(pool, r[i].record.id) < FirstPos(pool, r[j].record.id)
  {
    forall i | 0 <= i < |r| ensures 0.0 < r[i].rrfScore <= 2.0 / 61.0 {
      var id := r[i].record.id;
      assert fused[i] == r[i];
      FusedScorePositiveIffPresent(lists, FusionK, id);
      FusedScoreAtMost(lists, FusionK, id);
    }
    forall i, j | 0 <= i < j < |r| ensures r[i].record.id != r[j].record.id {
      assert fused[i] == r[i] && fused[j] == r[j];
      assert FusedIds(fused)[i] == r[i].record.id;
    }
    PrefixRecords(lists, fused, r);
  }

  /** A prefix of a ranking keeps its first-seen records and its tie order. */
  lemma PrefixRecords(lists: seq<seq<Candidate>>, fused: seq<Fused>, r: seq<Fused>)
    requires IsRrfRanking(lists, FusionK, fused)
    requires |r| <= |fused| && r == fused[..|r|]
    ensures var pool := Flatten(lists);
      forall i :: 0 <= i < |r| ==>
        r[i].record.id in IdsOf(pool) && r[i].record == pool[FirstPos(pool, r[i].record.id)]
    ensures var pool := Flatten(lists);
      forall i, j :: 0 <= i < j < |r| && r[i].rrfScore == r[j].rrfScore ==>
        && r[i].record.id in IdsOf(pool) && r[j].record.id in IdsOf(pool)
        && FirstPos(pool, r[i].record.id) < FirstPos(pool, r[j].record.id)
  {
    var pool := Flatten(lists);
    forall i | 0 <= i < |r|
      ensures r[i].record.id in IdsOf(pool) && r[i].record == pool[FirstPos(pool, r[i].record.id)]
    {
      assert fused[i] == r[i];
    }
    forall i, j | 0 <= i < j < |r| && r[i].rrfScore == r[j].rrfScore
      ensures r[i].record.id in IdsOf(pool) && r[j].record.id in IdsOf(pool)
      ensures FirstPos(pool, r[i].record.id) < FirstPos(pool, r[j].record.id)
    {
      assert fused[i] == r[i] && fused[j] == r[j];
    }
  }

  /** Every result in `r` is ranked ahead of `id` by reciprocal-rank fusion
      over `lists`: it scores at least as high, and on an equal score it was
      seen earlier in the concatenated lists. */
  ghost predicate RankedAhead(lists: seq<seq<Candidate>>, r: seq<Fused>, id: Id)
  {
    var pool := Flatten(lists);
    && id in IdsOf(pool)
    && forall i :: 0 <= i < |r| ==>
         && r[i].record.id in IdsOf(pool)
         && r[i].rrfScore >= FusedScore(lists, FusionK, id)
         && (r[i].rrfScore == FusedScore(lists, FusionK, id) ==>
               FirstPos(pool, r[i].record.id) < FirstPos(pool, id))
  }

  /** Top-k completeness of hybrid retrieval: a document either search found
      but that was cut off means `topK` results were returned, each ranked
      ahead of it under reciprocal-rank fusion, ties included. */
  lemma RetrieveComplete(s: Store, ix: LexicalIndex, query: string, topK: nat,
                         ann: (string, nat) -> seq<Hit>,
                         bm25: (seq<seq<string>>, seq<string>) -> seq<real>,
                         argsort: seq<real> -> seq<nat>, id: Id)
    requires AnnSound(s, ann) && WellFormed(ix) && Bm25Sound(bm25) && ArgsortSound(argsort)
    requires id in IdsOf(Search(s, query, 2 * topK, ann)) + IdsOf(KeywordSearch(s, ix, query, 2 * topK, bm25, argsort))
    requires id !in FusedIds(Retrieve(s, ix, query, topK, ann, bm25, argsort))
    ensures |Retrieve(s, ix, query, topK, ann, bm25, argsort)| == topK
    ensures RankedAhead(Lists(s, ix, query, topK, ann, bm25, argsort), Retrieve(s, ix, query, topK, ann, bm25, argsort), id)
  {
    var lists := Lists(s, ix, query, topK, ann, bm25, argsort);
    ListsIds(s, ix, query, topK, ann, bm25, argsort);
    var fused := Rrf(lists, FusionK);
    PrefixComplete(lists, fused, topK, Retrieve(s, ix, query, topK, ann, bm25, argsort), id);
  }

  /** An id of the inputs missing from a `topK` cut of an RRF ranking was cut
      off: the cut is full and every kept score is at least the id's. */
  lemma PrefixComplete(lists: seq<seq<Candidate>>, fused: seq<Fused>, topK: nat, r: seq<Fused>, id: Id)
    requires IsRrfRanking(lists, FusionK, fused)
    requires r == fused[..Min(topK, |fused|)]
    requires id in IdsOf(Flatten(lists)) && id !in FusedIds(r)
    ensures |r| == topK
    ensures RankedAhead(lists, r, id)
  {
    var q :| 0 <= q < |fused| && FusedIds(fused)[q] == id;
    forall i | 0 <= i < |r| ensures FusedIds(fused)[i] != id {
      assert FusedIds(r)[i] == FusedIds(fused)[i];
      assert FusedIds(r)[i] in FusedIds(r);
    }
    forall i | 0 <= i < |r| ensures r[i].rrfScore >= fused[q].rrfScore {
      assert r[i] == fused[i];
    }
  }

  // ---------------------------------------------------------------------------
  // Behaviour around an empty store
  // ---------------------------------------------------------------------------

  /** A retriever over an empty store has no index and retrieves nothing. */
  lemma RetrieveFromEmptyStore(s: Store, query: string, topK: nat,
                               ann: (string, nat) -> seq<Hit>,
                               bm25: (seq<seq<string>>, seq<string>) -> seq<real>,
                               argsort: seq<real> -> seq<nat>)
    requires |s.order| == 0
    requires AnnSound(s, ann) && Bm25Sound(bm25) && ArgsortSound(argsort)
    ensures NewRetriever(s) == NoIndex
    ensures Retrieve(s, NewRetriever(s), query, topK, ann, bm25, argsort) == []
  {
    var dense := Search(s, query, 2 * topK, ann);
    var keyword := KeywordSearch(s, NoIndex, query, 2 * topK, bm25, argsort);
    assert |dense| == 0 by {
      EmptyOrderEmptyContent(s);
    }
  }

  /** A store with no ids in its order holds nothing. */
  lemma EmptyOrderEmptyContent(s: Store)
    requires |s.order| == 0
    ensures |s.content| == 0
  {
    assert s.content.Keys == {} by {
      assert forall id :: id in s.content ==> id in s.order;
    }
  }

  /** Resetting the store does not reset the keyword index: rebuilding over
      the empty store keeps the old index, and a query any old document
      matches still returns results, whose ids the store no longer holds and
      which carry no content, page or type. */
  lemma StaleIndexAfterReset(s: Store, ix: LexicalIndex, query: string, k: nat,
                             bm25: (seq<seq<string>>, seq<string>) -> seq<real>,
                             argsort: seq<real> -> seq<nat>, x: nat)
    requires WellFormed(ix) && Bm25Sound(bm25) && ArgsortSound(argsort)
    requires ix.Built? && x < |ix.ids| && QueryScores(ix, query, bm25)[x] > 0.0
    requires k >= 1
    ensures RebuildIndex(Reset(s), ix) == ix
    ensures var r := KeywordSearch(Reset(s), ix, query, k, bm25, argsort);
      && |r| > 0
      && forall i :: 0 <= i < |r| ==>
           r[i].id !in Reset(s).content && r[i].original == None && r[i].page == None && r[i].kind == None
  {
    var e := Reset(s);
    var r := KeywordSearch(e, ix, query, k, bm25, argsort);
    if ix.ids[x] !in IdsOf(r) {
      KeywordSearchComplete(e, ix, query, k, bm25, argsort, x);
    } else {
      assert |IdsOf(r)| > 0;
    }
    forall i | 0 <= i < |r| ensures r[i].id !in e.content {
      assert |e.content| == 0;
    }
  }

  /** After a reset without re-adding documents, hybrid retrieval still
      returns results when an old document matches the query, all of them for
      ids the store no longer holds. */
  lemma RetrieveAfterReset(s: Store, ix: LexicalIndex, query: string, topK: nat,
                           ann: (string, nat) -> seq<Hit>,
                           bm25: (seq<seq<string>>, seq<string>) -> seq<real>,
                           argsort: seq<real> -> seq<nat>, x: nat)
    requires AnnSound(Reset(s), ann) && WellFormed(ix) && Bm25Sound(bm25) && ArgsortSound(argsort)
    requires ix.Built? && x < |ix.ids| && QueryScores(ix, query, bm25)[x] > 0.0
    requires topK >= 1
    ensures var r := Retrieve(Reset(s), ix, query, topK, ann, bm25, argsort);
      && |r| > 0
      && forall i :: 0 <= i < |r| ==> r[i].record.id !in Reset(s).content
  {
    var e := Reset(s);
    var dense := Search(e, query, 2 * topK, ann);
    var keyword := KeywordSearch(e, ix, query, 2 * topK, bm25, argsort);
    var r := Retrieve(e, ix, query, topK, ann, bm25, argsort);
    StaleIndexAfterReset(s, ix, query, 2 * topK, bm25, argsort, x);
    assert |dense| == 0;
    var id := keyword[0].id;
    assert id in IdsOf(keyword) by {
      assert IdsOf(keyword)[0] == id;
    }
    if id !in FusedIds(r) {
      RetrieveComplete(e, ix, query, topK, ann, bm25, argsort, id);
    } else {
      assert |FusedIds(r)| > 0;
    }
    forall i | 0 <= i < |r| ensures r[i].record.id !in e.content {
      assert |e.content| == 0;
    }
  }
}

=== FILE: strings.dfy ===
/** Text helpers with the semantics of the Python built-ins the system relies on:
    `sep.join`, `s.split(c)`, `s.split()`, `s.lower()`, `s.strip()`, and `str`
    of integers and of byte strings. */
module Strings {

  /** An 8-bit byte, the element type of a Python `bytes` value. */
  newtype Byte = x: int | 0 <= x < 256

  // ---------------------------------------------------------------------------
  // Joining and splitting on one separator character
  // ---------------------------------------------------------------------------

  /** `sep.join(parts)`. */
  function Join(parts: seq<string>, sep: string): string
  {
    if |parts| == 0 then ""
    else if |parts| == 1 then parts[0]
    else parts[0] + sep + Join(parts[1..], sep)
  }

  /** `s.split(c)` for a one-character separator: the pieces between the
      occurrences of `c`; there is always at least one piece. */
  function Split(s: string, c: char): (r: seq<string>)
    ensures |r| >= 1
  {
    if |s| == 0 then [""]
    else
      var rest := Split(s[1..], c);
      if s[0] == c then [""] + rest
      else [[s[0]] + rest[0]] + rest[1..]
  }

  /** Number of occurrences of `c` in `s`. */
  function Count(s: string, c: char): nat
  {
    if |s| == 0 then 0 else (if s[0] == c then 1 else 0) + Count(s[1..], c)
  }

  /** There is one more piece than there are separators. */
  lemma {:induction false} SplitLength(s: string, c: char)
    ensures |Split(s, c)| == Count(s, c) + 1
  {
    if |s| > 0 {
      SplitLength(s[1..], c);
    }
  }

  /** Joining the pieces with the separator gives back the string. */
  lemma {:induction false} JoinSplit(s: string, c: char)
    ensures Join(Split(s, c), [c]) == s
  {
    if |s| > 0 {
      JoinSplit(s[1..], c);
      var rest := Split(s[1..], c);
      if s[0] == c {
        assert Join([""] + rest, [c]) == "" + [c] + Join(rest, [c]);
      } else if |rest| == 1 {
        assert Split(s, c) == [[s[0]] + rest[0]];
      } else {
        var r := Split(s, c);
        assert r[1..] == rest[1..];
        assert Join(rest, [c]) == rest[0] + [c] + Join(rest[1..], [c]);
      }
    }
  }

  /** A string without the separator is a single piece. */
  lemma {:induction false} SplitWithoutSeparator(p: string, c: char)
    requires c !in p
    ensures Split(p, c) == [p]
  {
    if |p| > 0 {
      assert c !in p[1..] by {
        forall i | 0 <= i < |p[1..]| ensures p[1..][i] != c {
          assert p[1..][i] == p[i + 1];
        }
      }
      SplitWithoutSeparator(p[1..], c);
      assert [p[0]] + p[1..] == p;
    }
  }

  /** Splitting `p + c + t`, where `p` has no separator, yields `p` then the pieces of `t`. */
  lemma {:induction false} SplitAfterPiece(p: string, c: char, t: string)
    requires c !in p
    ensures Split(p + [c] + t, c) == [p] + Split(t, c)
  {
    var s := p + [c] + t;
    if |p| == 0 {
      assert s[1..] == t;
    } else {
      assert c !in p[1..] by {
        forall i | 0 <= i < |p[1..]| ensures p[1..][i] != c {
          assert p[1..][i] == p[i + 1];
        }
      }
      SplitAfterPiece(p[1..], c, t);
      assert s[1..] == p[1..] + [c] + t;
      assert [p[0]] + p[1..] == p;
    }
  }

  /** Splitting a join of separator-free pieces gives back the pieces. */
  lemma {:induction false} SplitJoin(parts: seq<string>, c: char)
    requires |parts| >= 1
    requires forall p :: p in parts ==> c !in p
    ensures Split(Join(parts, [c]), c) == parts
  {
    if |parts| == 1 {
      SplitWithoutSeparator(parts[0], c);
    } else {
      assert parts[0] in parts;
      forall p | p in parts[1..] ensures c !in p {
        assert p in parts;
      }
      SplitJoin(parts[1..], c);
      SplitAfterPiece(parts[0], c, Join(parts[1..], [c]));
      assert [parts[0]] + parts[1..] == parts;
    }
  }

  /** A join splits at any piece boundary. */
  lemma {:induction false} JoinPrefix(parts: seq<string>, sep: string, m: nat)
    requires 1 <= m <= |parts|
    ensures Join(parts, sep)
         == Join(parts[..m], sep) + (if m < |parts| then sep + Join(parts[m..], sep) else "")
  {
    if m == |parts| {
      assert parts[..m] == parts;
    } else if m == 1 {
      assert parts[..1] == [parts[0]];
      assert parts[1..] == parts[m..];
    } else {
      JoinPrefix(parts[1..], sep, m - 1);
      assert parts[1..][..m - 1] == parts[..m][1..];
      assert parts[1..][m - 1..] == parts[m..];
    }
  }

  /** A join is at least as long as its first piece. */
  lemma JoinHead(parts: seq<string>, sep: string)
    ensures |parts| > 0 ==> |Join(parts, sep)| >= |parts[0]|
  {
  }

  /** Appending one piece appends the separator and the piece. */
  lemma {:induction false} JoinAppend(parts: seq<string>, x: string, sep: string)
    requires |parts| >= 1
    ensures Join(parts + [x], sep) == Join(parts, sep) + sep + x
  {
    JoinPrefix(parts + [x], sep, |parts|);
    assert (parts + [x])[..|parts|] == parts;
    assert (parts + [x])[|parts|..] == [x];
  }

  /** Occurrences add up over a concatenation. */
  lemma {:induction false} CountConcat(a: string, b: string, c: char)
    ensures Count(a + b, c) == Count(a, c) + Count(b, c)
  {
    if |a| > 0 {
      CountConcat(a[1..], b, c);
      assert (a + b)[1..] == a[1..] + b;
    } else {
      assert a + b == b;
    }
  }

  /** A string without the character has no occurrence of it. */
  lemma {:induction false} CountAbsent(s: string, c: char)
    requires c !in s
    ensures Count(s, c) == 0
  {
    if |s| > 0 {
      assert s == [s[0]] + s[1..];
      CountAbsent(s[1..], c);
    }
  }

  /** Joining pieces without `c` counts the occurrences in the separators only. */
  lemma {:induction false} JoinCount(parts: seq<string>, sep: string, c: char)
    requires |parts| >= 1
    requires forall p :: p in parts ==> c !in p
    ensures Count(Join(parts, sep), c) == (|parts| - 1) * Count(sep, c)
  {
    assert parts[0] in parts;
    CountAbsent(parts[0], c);
    if |parts| > 1 {
      assert forall p :: p in parts[1..] ==> p in parts;
      JoinCount(parts[1..], sep, c);
      CountConcat(parts[0], sep, c);
      CountConcat(parts[0] + sep, Join(parts[1..], sep), c);
    }
  }

  /** A join of pieces without `c`, by a separator without `c`, has no `c`. */
  lemma {:induction false} JoinAvoids(parts: seq<string>, sep: string, c: char)
    requires c !in sep
    requires forall p :: p in parts ==> c !in p
    ensures c !in Join(parts, sep)
  {
    if |parts| == 1 {
      assert parts[0] in parts;
    } else if |parts| > 1 {
      assert parts[0] in parts;
      assert forall p :: p in parts[1..] ==> p in parts;
      JoinAvoids(parts[1..], sep, c);
    }
  }

  // ---------------------------------------------------------------------------
  // Whitespace, `str.split()` and `str.strip()`
  // ---------------------------------------------------------------------------

  /** Python's `str.isspace` for one character (the characters CPython's
      `Py_UNICODE_ISSPACE` accepts). */
  predicate IsSpace(ch: char)
  {
    || ('\U{9}' <= ch <= '\U{D}')
    || ('\U{1C}' <= ch <= '\U{1F}')
    || ch == ' '
    || ch == '\U{85}'
    || ch == '\U{A0}'
    || ch == '\U{1680}'
    || ('\U{2000}' <= ch <= '\U{200A}')
    || ch == '\U{2028}'
    || ch == '\U{2029}'
    || ch == '\U{202F}'
    || ch == '\U{205F}'
    || ch == '\U{3000}'
  }

  /** A non-empty run of non-whitespace characters. */
  predicate IsWord(w: string)
  {
    |w| > 0 && forall i :: 0 <= i < |w| ==> !IsSpace(w[i])
  }

  /** Length of the leading run of non-whitespace characters of `s`. */
  function WordLength(s: string): (n: nat)
    ensures n <= |s|
    ensures forall i :: 0 <= i < n ==> !IsSpace(s[i])
    ensures n < |s| ==> IsSpace(s[n])
  {
    if |s| == 0 || IsSpace(s[0]) then 0 else 1 + WordLength(s[1..])
  }

  /** `s.split()`: the maximal runs of non-whitespace characters, in order. */
  function Words(s: string): (r: seq<string>)
    ensures forall w :: w in r ==> IsWord(w)
    decreases |s|
  {
    if |s| == 0 then []
    else if IsSpace(s[0]) then Words(s[1..])
    else
      var n := WordLength(s);
      [s[..n]] + Words(s[n..])
  }

  /** A word followed by nothing or by whitespace is read as one whole run. */
  lemma {:induction false} WordLengthOfWord(w: string, t: string)
    requires IsWord(w)
    requires |t| == 0 || IsSpace(t[0])
    ensures WordLength(w + t) == |w|
  {
    assert forall i :: 0 <= i < |w| ==> (w + t)[i] == w[i];
    if |t| > 0 {
      assert (w + t)[|w|] == t[0];
    }
  }

  /** Splitting single-space-separated words gives back the words. */
  lemma {:induction false} WordsOfJoin(ws: seq<string>)
    requires forall w :: w in ws ==> IsWord(w)
    ensures Words(Join(ws, " ")) == ws
  {
    if |ws| == 1 {
      var w := ws[0];
      assert w in ws;
      WordLengthOfWord(w, "");
      assert w + "" == w;
      assert w[..|w|] == w && w[|w|..] == "";
    } else if |ws| > 1 {
      var w := ws[0];
      assert w in ws;
      forall v | v in ws[1..] ensures IsWord(v) {
        assert v in ws;
      }
      WordsOfJoin(ws[1..]);
      var rest := Join(ws[1..], " ");
      var s := w + " " + rest;
      assert s == w + (" " + rest);
      WordLengthOfWord(w, " " + rest);
      assert s[..|w|] == w;
      assert s[|w|..] == " " + rest;
      assert (" " + rest)[1..] == rest;
      assert [w] + ws[1..] == ws;
    }
  }

  /** A string with no whitespace splits into itself alone. */
  lemma WordsOfWord(w: string)
    requires IsWord(w)
    ensures Words(w) == [w]
  {
    WordLengthOfWord(w, "");
    assert w + "" == w;
    assert w[..|w|] == w && w[|w|..] == "";
  }

  /** The leading run of `a + [c] + b`, for a whitespace `c`, is that of `a`. */
  lemma WordLengthBeforeSpace(a: string, c: char, b: string)
    requires IsSpace(c)
    ensures WordLength(a + [c] + b) == WordLength(a)
  {
    var s := a + [c] + b;
    var n := WordLength(a);
    var m := WordLength(s);
    assert forall i :: 0 <= i < |a| ==> s[i] == a[i];
    assert s[|a|] == c;
  }

  /** Cutting `a + [c] + b` inside `a`. */
  lemma CutBefore<T>(a: seq<T>, c: T, b: seq<T>, n: nat)
    requires n <= |a|
    ensures (a + [c] + b)[..n] == a[..n]
    ensures (a + [c] + b)[n..] == a[n..] + [c] + b
  {
  }

  /** Whitespace anywhere in a string splits it there: the words of
      `a + [c] + b` are the words of `a` followed by the words of `b`. With
      `WordsOfWord` this determines `Words` on every string. */
  lemma {:induction false} WordsAtSpace(a: string, c: char, b: string)
    requires IsSpace(c)
    ensures Words(a + [c] + b) == Words(a) + Words(b)
    decreases |a|
  {
    var s := a + [c] + b;
    if |a| == 0 {
      assert s[1..] == b;
    } else if IsSpace(a[0]) {
      WordsAtSpace(a[1..], c, b);
      CutBefore(a, c, b, 1);
    } else {
      var n := WordLength(a);
      WordLengthBeforeSpace(a, c, b);
      WordsAtSpace(a[n..], c, b);
      CutBefore(a, c, b, n);
      assert Words(s) == [a[..n]] + Words(a[n..] + [c] + b);
    }
  }

  // ---------------------------------------------------------------------------
  // Lower-casing
  // ---------------------------------------------------------------------------

  predicate IsUpper(ch: char)
  {
    'A' <= ch <= 'Z'
  }

  /** `ch.lower()` on ASCII letters; every other character is kept. */
  function LowerChar(ch: char): (r: char)
    ensures !IsUpper(r)
    ensures IsUpper(ch) ==> r as int == ch as int + 32
    ensures !IsUpper(ch) ==> r == ch
  {
    if IsUpper(ch) then (ch as int + 32) as char else ch
  }

  /** `s.lower()`: the same length, each character lower-cased on its own. */
  function Lower(s: string): (r: string)
    ensures |r| == |s|
    ensures forall i :: 0 <= i < |s| ==> r[i] == LowerChar(s[i])
  {
    seq(|s|, i requires 0 <= i < |s| => LowerChar(s[i]))
  }

  predicate NoUpper(s: string)
  {
    forall i :: 0 <= i < |s| ==> !IsUpper(s[i])
  }

  /** Lower-casing leaves no upper-case letter, and changes nothing in a string
      that has none: it is idempotent. */
  lemma LowerFacts(s: string)
    ensures NoUpper(Lower(s))
    ensures NoUpper(s) <==> Lower(s) == s
  {
    if NoUpper(s) {
      assert forall i :: 0 <= i < |s| ==> Lower(s)[i] == s[i];
    }
    if Lower(s) == s {
      assert forall i :: 0 <= i < |s| ==> !IsUpper(Lower(s)[i]);
    }
  }

  /** Splitting a string without upper-case letters gives words without them. */
  lemma {:induction false} WordsNoUpper(s: string)
    requires NoUpper(s)
    ensures forall w :: w in Words(s) ==> NoUpper(w)
    decreases |s|
  {
    if |s| > 0 {
      if IsSpace(s[0]) {
        assert NoUpper(s[1..]) by {
          forall i | 0 <= i < |s| - 1 ensures !IsUpper(s[1..][i]) {
            assert s[1..][i] == s[i + 1];
          }
        }
        WordsNoUpper(s[1..]);
      } else {
        var n := WordLength(s);
        assert NoUpper(s[n..]) by {
          forall i | 0 <= i < |s| - n ensures !IsUpper(s[n..][i]) {
            assert s[n..][i] == s[i + n];
          }
        }
        assert NoUpper(s[..n]);
        WordsNoUpper(s[n..]);
      }
    }
  }

  /** Joining strings without upper-case letters with a separator without
      upper-case letters gives a string without upper-case letters. */
  lemma {:induction false} JoinNoUpper(parts: seq<string>, sep: string)
    requires NoUpper(sep)
    requires forall w :: w in parts ==> NoUpper(w)
    ensures NoUpper(Join(parts, sep))
  {
    if |parts| > 1 {
      assert parts[0] in parts;
      assert forall w :: w in parts[1..] ==> w in parts;
      JoinNoUpper(parts[1..], sep);
      var rest := Join(parts[1..], sep);
      var j := parts[0] + sep + rest;
      forall i | 0 <= i < |j| ensures !IsUpper(j[i]) {
        if i < |parts[0]| {
          assert j[i] == parts[0][i];
        } else if i < |parts[0]| + |sep| {
          assert j[i] == sep[i - |parts[0]|];
        } else {
          assert j[i] == rest[i - |parts[0]| - |sep|];
        }
      }
    } else if |parts| == 1 {
      assert parts[0] in parts;
    }
  }

  /** The number of whitespace characters `s` starts with. */
  function LeadingSpaces(s: string): (n: nat)
    ensures n <= |s|
    ensures forall j :: 0 <= j < n ==> IsSpace(s[j])
    ensures n < |s| ==> !IsSpace(s[n])
  {
    if |s| > 0 && IsSpace(s[0]) then
      var m := LeadingSpaces(s[1..]);
      assert forall j :: 1 <= j < 1 + m ==> s[j] == s[1..][j - 1];
      1 + m
    else 0
  }

  /** The number of whitespace characters `s` ends with. */
  function TrailingSpaces(s: string): (n: nat)
    ensures n <= |s|
    ensures forall j :: |s| - n <= j < |s| ==> IsSpace(s[j])
    ensures n < |s| ==> !IsSpace(s[|s| - n - 1])
  {
    if |s| > 0 && IsSpace(s[|s| - 1]) then
      var m := TrailingSpaces(s[..|s| - 1]);
      assert forall j :: |s| - 1 - m <= j < |s| - 1 ==> s[j] == s[..|s| - 1][j];
      1 + m
    else 0
  }

  /** `s.lstrip()`: drops leading whitespace. */
  function TrimLeft(s: string): (r: string)
    ensures |r| <= |s| && r == s[|s| - |r|..]
    ensures forall i :: 0 <= i < |s| - |r| ==> IsSpace(s[i])
    ensures |r| > 0 ==> !IsSpace(r[0])
  {
    s[LeadingSpaces(s)..]
  }

  /** `s.rstrip()`: drops trailing whitespace. */
  function TrimRight(s: string): (r: string)
    ensures |r| <= |s| && r == s[..|r|]
    ensures forall i :: |r| <= i < |s| ==> IsSpace(s[i])
    ensures |r| > 0 ==> !IsSpace(r[|r| - 1])
  {
    s[..|s| - TrailingSpaces(s)]
  }

  /** `s.strip()`. */
  function Strip(s: string): string
  {
    TrimRight(TrimLeft(s))
  }

  /** The stripped string is a slice of the original obtained by dropping only
      whitespace, and it neither starts nor ends with whitespace. */
  lemma StripIsTrimmedSlice(s: string)
    ensures var i, r := |s| - |TrimLeft(s)|, Strip(s);
      && i + |r| <= |s| && r == s[i..i + |r|]
      && (forall j :: 0 <= j < i ==> IsSpace(s[j]))
      && (forall j :: i + |r| <= j < |s| ==> IsSpace(s[j]))
      && (|r| > 0 ==> !IsSpace(r[0]) && !IsSpace(r[|r| - 1]))
  {
    var a := LeadingSpaces(s);
    var l := s[a..];
    var b := |l| - TrailingSpaces(l);
    assert Strip(s) == s[a..a + b];
    forall j | a + b <= j < |s| ensures IsSpace(s[j]) {
      assert s[j] == l[j - a];
    }
  }

  // ---------------------------------------------------------------------------
  // `str` of integers and of byte strings
  // ---------------------------------------------------------------------------

  function DigitChar(d: nat): char
    requires d < 10
  {
    (('0' as int) + d) as char
  }

  /** Decimal rendering of a natural number, most significant digit first. */
  function NatToString(n: nat): (r: string)
    ensures |r| >= 1
    ensures forall i :: 0 <= i < |r| ==> '0' <= r[i] <= '9'
    decreases n
  {
    if n < 10 then [DigitChar(n)] else NatToString(n / 10) + [DigitChar(n % 10)]
  }

  /** `str(i)` for an integer. */
  function IntToString(i: int): string
  {
    if i < 0 then "-" + NatToString(-i) else NatToString(i)
  }

  /** The value of a string of decimal digits. */
  function DigitsValue(s: string): nat
    requires forall i :: 0 <= i < |s| ==> '0' <= s[i] <= '9'
  {
    if |s| == 0 then 0
    else DigitsValue(s[..|s| - 1]) * 10 + ((s[|s| - 1] as int) - ('0' as int))
  }

  /** Reading the decimal rendering back gives the number. */
  lemma {:induction false} NatToStringRoundTrip(n: nat)
    ensures DigitsValue(NatToString(n)) == n
  {
    if n >= 10 {
      NatToStringRoundTrip(n / 10);
      var s := NatToString(n);
      assert s[..|s| - 1] == NatToString(n / 10);
    }
  }

  function HexDigit(d: nat): char
    requires d < 16
  {
    "0123456789abcdef"[d]
  }

  /** One byte inside CPython's `bytes.__repr__`, for the chosen quote. */
  function EscapeByte(x: Byte, quote: char): (r: string)
    requires quote == '\'' || quote == '"'
    ensures forall i :: 0 <= i < |r| ==> ' ' <= r[i] <= '~'
  {
    if x as int == quote as int || x == 92 then ['\\', (x as int) as char]
    else if x == 9 then "\\t"
    else if x == 10 then "\\n"
    else if x == 13 then "\\r"
    else if x < 32 || x >= 127 then "\\x" + [HexDigit(x as int / 16), HexDigit(x as int % 16)]
    else [(x as int) as char]
  }

  function EscapeBytes(b: seq<Byte>, quote: char): (r: string)
    requires quote == '\'' || quote == '"'
    ensures forall i :: 0 <= i < |r| ==> ' ' <= r[i] <= '~'
  {
    if |b| == 0 then "" else EscapeBytes(b[..|b| - 1], quote) + EscapeByte(b[|b| - 1], quote)
  }

  /** `str(b)` for a `bytes` value, which Python renders as its repr: `b'...'`,
      switching to double quotes when the bytes hold a single quote and no
      double quote. The rendering is printable ASCII, so it never holds a
      line break. */
  function BytesRepr(b: seq<Byte>): (r: string)
    ensures |r| >= 3 && r[0] == 'b'
    ensures forall i :: 0 <= i < |r| ==> ' ' <= r[i] <= '~'
  {
    var quote := if 39 in b && 34 !in b then '"' else '\'';
    "b" + [quote] + EscapeBytes(b, quote) + [quote]
  }
}

=== FILE: vector_store.dfy ===
/** The vector store of src/vector_store.py: the collection (modelled by the
    document and metadata it keeps per id; the embeddings and the nearest
    neighbour index are an oracle) and the content store, the dictionary from
    document id to the original content, kept in insertion order as Python's
    dict is. */
module VectorStore {
  import opened Strings
  import opened Records

  /** What the collection keeps for one id besides its embedding: the summary
      (as the searchable document) and the `page` and `type` metadata. */
  datatype IndexEntry = IndexEntry(document: string, page: int, kind: string)

  /** The collection, the content store's keys in insertion order, and the
      content store itself. */
  datatype RawStore = RawStore(
    collection: map<Id, IndexEntry>,
    order: seq<Id>,
    content: map<Id, StoredRecord>)

  /** The collection entry add_documents writes alongside a stored record. */
  function EntryOf(rec: StoredRecord): IndexEntry
  {
    IndexEntry(rec.summary, rec.page, rec.kind)
  }

  /** The two halves are written together: they hold the same ids, the order
      lists each id once (as many entries as keys), and the collection's
      document and metadata agree with the stored record. */
  predicate Consistent(s: RawStore)
  {
    && Distinct(s.order)
    && (forall i :: 0 <= i < |s.order| ==> s.order[i] in s.content)
    && (forall id :: id in s.content ==> id in s.order)
    && s.collection.Keys == s.content.Keys
    && (forall id :: id in s.collection ==> s.collection[id] == EntryOf(s.content[id]))
  }

  type Store = s: RawStore | Consistent(s) witness RawStore(map[], [], map[])

  /** A freshly created store: an empty collection and an empty content store. */
  function NewStore(): (s: Store)
    ensures s.order == [] && |s.content| == 0 && |s.collection| == 0
  {
    RawStore(map[], [], map[])
  }

  /** The embedding model can encode the summary that add_documents picks:
      a summary, or, when the summary key is absent, the text content or the
      empty default. A `None` summary or content, or image bytes, would be
      handed to the encoder, which is outside this model. */
  predicate Encodable(item: ContentItem)
  {
    || item.summary.Val?
    || (item.summary.Missing? && (item.content.Missing? || (item.content.Val? && item.content.value.Text?)))
  }

  /** The searchable document: the summary if the key is there, else the
      content, else "". */
  function ChosenSummary(item: ContentItem): (r: string)
    requires Encodable(item)
    ensures item.summary.Val? ==> r == item.summary.value
    ensures item.summary.Missing? && item.content.Val? ==> r == PayloadText(item.content.value)
    ensures item.summary.Missing? && item.content.Missing? ==> r == ""
  {
    match item.summary
    case Val(s) => s
    case _ =>
      match item.content
      case Val(Text(t)) => t
      case _ => ""
  }

  /** The content store value for one item; a content key holding `None` and
      an absent one both store `None`, and an absent metadata key is `{}`. */
  function StoredOf(item: ContentItem): (r: StoredRecord)
    requires Encodable(item)
    ensures r.original.Some? <==> item.content.Val?
    ensures r.original.Some? ==> r.original.value == item.content.value
    ensures r.summary == ChosenSummary(item)
    ensures r.page == item.page && r.kind == item.kind && r.metadata == item.metadata
  {
    StoredRecord(
      if item.content.Val? then Some(item.content.value) else None,
      ChosenSummary(item),
      item.page,
      item.kind,
      item.metadata)
  }

  /** The records of one call, keyed by their new ids. */
  function Added(items: seq<ContentItem>, newIds: seq<Id>): (m: map<Id, StoredRecord>)
    requires |newIds| == |items| && Distinct(newIds)
    requires forall item :: item in items ==> Encodable(item)
    ensures m.Keys == set id | id in newIds
    ensures forall i :: 0 <= i < |newIds| ==> newIds[i] in m && m[newIds[i]] == StoredOf(items[i])
  {
    map i | 0 <= i < |newIds| :: newIds[i] := StoredOf(items[i])
  }

  /** The collection entries of one call. */
  function CollectionEntries(added: map<Id, StoredRecord>): (m: map<Id, IndexEntry>)
    ensures m.Keys == added.Keys
    ensures forall id :: id in m ==> m[id] == EntryOf(added[id])
  {
    map id | id in added :: EntryOf(added[id])
  }

  /** `add_documents`: each item gets the id at its position in `newIds` (the
      uuid4 strings the source draws), its record in the content store and its
      entry in the collection. */
  function AddDocuments(s: Store, items: seq<ContentItem>, newIds: seq<Id>): (r: Store)
    requires |newIds| == |items| && Distinct(newIds)
    requires forall id :: id in newIds ==> id !in s.content
    requires forall item :: item in items ==> Encodable(item)
    ensures r.order == s.order + newIds
    ensures forall i :: 0 <= i < |items| ==> newIds[i] in r.content && r.content[newIds[i]] == StoredOf(items[i])
    ensures forall id :: id in s.content ==> id in r.content && r.content[id] == s.content[id]
    ensures forall id :: id in r.content ==> id in s.content || id in newIds
    ensures |r.content| == |s.content| + |items|
  {
    AddFacts(s, items, newIds);
    Extend(s, Added(items, newIds), newIds)
  }

  /** The facts `AddDocuments` promises, about the extended store. */
  lemma AddFacts(s: Store, items: seq<ContentItem>, newIds: seq<Id>)
    requires |newIds| == |items| && Distinct(newIds)
    requires forall id :: id in newIds ==> id !in s.content
    requires forall item :: item in items ==> Encodable(item)
    ensures var r := Extend(s, Added(items, newIds), newIds);
      && r.order == s.order + newIds
      && (forall i :: 0 <= i < |items| ==> newIds[i] in r.content && r.content[newIds[i]] == StoredOf(items[i]))
      && (forall id :: id in s.content ==> id in r.content && r.content[id] == s.content[id])
      && (forall id :: id in r.content ==> id in s.content || id in newIds)
      && |r.content| == |s.content| + |items|
  {
    UnionFacts(s.content, Added(items, newIds), newIds);
  }

  /** The store with `newIds` appended, their records in the content store
      and their entries in the collection. */
  function Extend(s: Store, added: map<Id, StoredRecord>, newIds: seq<Id>): (r: Store)
    requires Distinct(newIds)
    requires added.Keys == set id | id in newIds
    requires forall id :: id in newIds ==> id !in s.content
    ensures r.order == s.order + newIds
    ensures r.content == s.content + added
    ensures r.collection == s.collection + CollectionEntries(added)
  {
    AddKeepsConsistent(s, added, newIds);
    var r: RawStore := RawStore(s.collection + CollectionEntries(added), s.order + newIds, s.content + added);
    assert Consistent(r);
    r
  }

  /** Appending new ids with their records and entries keeps the two halves
      of the store in step. */
  lemma AddKeepsConsistent(s: Store, added: map<Id, StoredRecord>, newIds: seq<Id>)
    requires Distinct(newIds)
    requires added.Keys == set id | id in newIds
    requires forall id :: id in newIds ==> id !in s.content
    ensures Consistent(RawStore(s.collection + CollectionEntries(added), s.order + newIds, s.content + added))
  {
    OrderAfterAdd(s.order, s.content, added, newIds);
    CollectionAfterAdd(s, added);
  }

  /** The appended order still lists every key of the merged content once. */
  lemma OrderAfterAdd(order: seq<Id>, content: map<Id, StoredRecord>, added: map<Id, StoredRecord>, newIds: seq<Id>)
    requires Distinct(order) && Distinct(newIds)
    requires forall i :: 0 <= i < |order| ==> order[i] in content
    requires forall id :: id in content ==> id in order
    requires added.Keys == set id | id in newIds
    requires forall id :: id in newIds ==> id !in content
    ensures Distinct(order + newIds)
    ensures forall i :: 0 <= i < |order + newIds| ==> (order + newIds)[i] in content + added
    ensures forall id :: id in content + added ==> id in order + newIds
  {
    var o := order + newIds;
    forall i, j | 0 <= i < j < |o| ensures o[i] != o[j] {
      if j >= |order| && i < |order| {
        assert o[i] in content && o[j] in newIds;
      }
    }
    forall i | 0 <= i < |o| ensures o[i] in content + added {
      if i >= |order| {
        assert o[i] == newIds[i - |order|];
      }
    }
  }

  /** The merged collection agrees with the merged content store. */
  lemma CollectionAfterAdd(s: Store, added: map<Id, StoredRecord>)
    ensures (s.collection + CollectionEntries(added)).Keys == (s.content + added).Keys
    ensures forall id :: id in s.collection + CollectionEntries(added) ==>
      (s.collection + CollectionEntries(added))[id] == EntryOf((s.content + added)[id])
  {
  }

  /** What the content store holds after the new records are merged in. */
  lemma UnionFacts(before: map<Id, StoredRecord>, added: map<Id, StoredRecord>, newIds: seq<Id>)
    requires Distinct(newIds)
    requires added.Keys == set id | id in newIds
    requires forall id :: id in newIds ==> id !in before
    ensures forall id :: id in added ==> id in before + added && (before + added)[id] == added[id]
    ensures forall id :: id in before ==> id in before + added && (before + added)[id] == before[id]
    ensures forall id :: id in before + added ==> id in before || id in newIds
    ensures |before + added| == |before| + |newIds|
  {
    AddedCard(before, added, newIds);
  }

  /** Adding keys that are new grows the dictionary by their number. */
  lemma {:induction false} AddedCard(before: map<Id, StoredRecord>, added: map<Id, StoredRecord>, newIds: seq<Id>)
    requires Distinct(newIds)
    requires added.Keys == set id | id in newIds
    requires forall id :: id in newIds ==> id !in before
    ensures |before + added| == |before| + |newIds|
  {
    DistinctCard(newIds);
    assert (before + added).Keys == before.Keys + added.Keys;
    assert before.Keys !! added.Keys;
  }

  /** `get_original_content`: the stored record, or `None` for an unknown id. */
  function GetOriginalContent(s: Store, id: Id): (r: Option<StoredRecord>)
    ensures r.Some? <==> id in s.content
    ensures r.Some? ==> r.value == s.content[id]
  {
    if id in s.content then Some(s.content[id]) else None
  }

  /** `reset`: a new empty collection and an empty content store. */
  function Reset(s: Store): (r: Store)
    ensures r.order == [] && |r.content| == 0 && |r.collection| == 0
  {
    NewStore()
  }

  /** One element of `get_all_documents`: a copy of the record plus `doc_id`. */
  datatype Document = Document(docId: Id, record: StoredRecord)

  /** `get_all_documents`: every stored record, in insertion order. */
  function GetAllDocuments(s: Store): (r: seq<Document>)
    ensures |r| == |s.order|
    ensures forall i :: 0 <= i < |r| ==>
      && r[i].docId == s.order[i]
      && r[i].docId in s.content
      && r[i].record == s.content[r[i].docId]
  {
    seq(|s.order|, i requires 0 <= i < |s.order| => Document(s.order[i], s.content[s.order[i]]))
  }

  /** One nearest-neighbour hit: an id and its cosine distance. */
  datatype Hit = Hit(id: Id, distance: real)

  /** The metadata the collection returns with a hit: page, type and doc_id. */
  function HitMetadata(e: IndexEntry, id: Id): Metadata
  {
    map["page" := MInt(e.page), "type" := MStr(e.kind), "doc_id" := MStr(id)]
  }

  /** One formatted dense result; the original content is looked up in the
      content store and is `None` when the id is not there. */
  function FormatHit(s: Store, h: Hit): Candidate
    requires h.id in s.collection
  {
    var e := s.collection[h.id];
    Candidate(
      h.id,
      Distance(h.distance),
      e.document,
      if h.id in s.content then s.content[h.id].original else None,
      Some(e.page),
      Some(e.kind),
      HitMetadata(e, h.id))
  }

  /** The formatting loop of `search`: one candidate per hit, in hit order,
      carrying what was stored for that id. */
  function FormatHits(s: Store, hits: seq<Hit>): (r: seq<Candidate>)
    requires forall h :: h in hits ==> h.id in s.collection
    ensures |r| == |hits|
    ensures forall i :: 0 <= i < |r| ==>
      && r[i].id == hits[i].id
      && r[i].signal == Distance(hits[i].distance)
      && hits[i].id in s.content
      && r[i].document == s.content[hits[i].id].summary
      && r[i].original == s.content[hits[i].id].original
      && r[i].page == Some(s.content[hits[i].id].page)
      && r[i].kind == Some(s.content[hits[i].id].kind)
      && "doc_id" in r[i].metadata && r[i].metadata["doc_id"] == MStr(hits[i].id)
  {
    seq(|hits|, i requires 0 <= i < |hits| => FormatHit(s, hits[i]))
  }

  /** What a nearest-neighbour query over the collection guarantees: at most
      `n` hits, each for a distinct id of the collection. */
  ghost predicate AnnSound(s: Store, ann: (string, nat) -> seq<Hit>)
  {
    forall q, n ::
      |ann(q, n)| <= n
      && Distinct(HitIds(ann(q, n)))
      && (forall h :: h in ann(q, n) ==> h.id in s.collection)
  }

  /** The ids of a sequence of hits, in order. */
  function HitIds(hits: seq<Hit>): seq<Id>
  {
    seq(|hits|, i requires 0 <= i < |hits| => hits[i].id)
  }

  /** Hits for distinct ids of the collection are no more than its size. */
  lemma HitsWithinCollection(s: Store, hits: seq<Hit>)
    requires Distinct(HitIds(hits))
    requires forall h :: h in hits ==> h.id in s.collection
    ensures |hits| <= |s.collection|
  {
    var ids := HitIds(hits);
    DistinctCard(ids);
    assert (set id | id in ids) <= s.collection.Keys by {
      forall id | id in ids ensures id in s.collection.Keys {
        var i :| 0 <= i < |ids| && ids[i] == id;
        assert hits[i] in hits;
      }
    }
    SubsetCard((set id | id in ids), s.collection.Keys);
  }

  /** `search`: the `n` nearest summaries to the query, formatted. */
  function Search(s: Store, query: string, n: nat, ann: (string, nat) -> seq<Hit>): (r: seq<Candidate>)
    requires AnnSound(s, ann)
    ensures |r| <= n
    ensures Distinct(IdsOf(r))
    ensures forall i :: 0 <= i < |r| ==>
      && r[i].id in s.content
      && r[i].signal.Distance?
      && r[i].original == s.content[r[i].id].original
    ensures |r| <= |s.content|
    ensures |r| == |ann(query, n)|
    ensures forall i :: 0 <= i < |r| ==>
      r[i].id == ann(query, n)[i].id && r[i].signal == Distance(ann(query, n)[i].distance)
    ensures forall i :: 0 <= i < |r| ==>
      && r[i].id in s.content
      && r[i].document == s.content[r[i].id].summary
      && r[i].page == Some(s.content[r[i].id].page)
      && r[i].kind == Some(s.content[r[i].id].kind)
      && "doc_id" in r[i].metadata && r[i].metadata["doc_id"] == MStr(r[i].id)
  {
    var hits := ann(query, n);
    HitsWithinCollection(s, hits);
    var r := FormatHits(s, hits);
    assert IdsOf(r) == HitIds(hits);
    r
  }

  // ---------------------------------------------------------------------
  // Properties relating the operations
  // ---------------------------------------------------------------------

  /** Every added item can be read back by its id, and every other id reads
      as before. Two items with the same summary stay apart: each id returns
      its own record. */
  lemma AddThenGet(s: Store, items: seq<ContentItem>, newIds: seq<Id>)
    requires |newIds| == |items| && Distinct(newIds)
    requires forall id :: id in newIds ==> id !in s.content
    requires forall item :: item in items ==> Encodable(item)
    ensures forall i :: 0 <= i < |items| ==>
      GetOriginalContent(AddDocuments(s, items, newIds), newIds[i]) == Some(StoredOf(items[i]))
    ensures forall id :: id !in newIds ==>
      GetOriginalContent(AddDocuments(s, items, newIds), id) == GetOriginalContent(s, id)
  {
  }

  /** An empty batch leaves the store as it was. */
  lemma AddNothing(s: Store)
    ensures AddDocuments(s, [], []) == s
  {
    var r := AddDocuments(s, [], []);
    SameMap(s.content, r.content);
    SameStore(r, s);
  }

  /** A map that keeps every entry of another and has no other keys is that map. */
  lemma SameMap<K, V>(a: map<K, V>, b: map<K, V>)
    requires forall k :: k in a ==> k in b && b[k] == a[k]
    requires forall k :: k in b ==> k in a
    ensures a == b
  {
    assert a.Keys == b.Keys;
  }

  /** The collection is determined by the content store. */
  lemma SameStore(a: Store, b: Store)
    requires a.order == b.order && a.content == b.content
    ensures a == b
  {
    assert a.collection == b.collection by {
      assert a.collection.Keys == b.collection.Keys;
    }
  }

  /** After a reset nothing can be read back. */
  lemma ResetForgets(s: Store, id: Id)
    ensures GetOriginalContent(Reset(s), id) == None
    ensures GetAllDocuments(Reset(s)) == []
  {
  }

  /** `get_all_documents` lists exactly the ids `get_original_content`
      answers for, each with the record it returns. */
  lemma AllDocumentsAgree(s: Store, id: Id)
    ensures GetOriginalContent(s, id).Some? <==>
      exists i :: 0 <= i < |GetAllDocuments(s)| && GetAllDocuments(s)[i].docId == id
    ensures forall d :: d in GetAllDocuments(s) ==> GetOriginalContent(s, d.docId) == Some(d.record)
  {
    var docs := GetAllDocuments(s);
    if id in s.content {
      assert id in s.order;
      var i :| 0 <= i < |s.order| && s.order[i] == id;
      assert docs[i].docId == id;
    }
  }

  /** The documents one `add_documents` call contributes, in item order. */
  function NewDocuments(items: seq<ContentItem>, newIds: seq<Id>): (r: seq<Document>)
    requires |newIds| == |items|
    requires forall item :: item in items ==> Encodable(item)
    ensures |r| == |items|
    ensures forall i :: 0 <= i < |r| ==> r[i] == Document(newIds[i], StoredOf(items[i]))
  {
    seq(|items|, i requires 0 <= i < |items| => Document(newIds[i], StoredOf(items[i])))
  }

  /** Adding documents appends their records, in item order, to what
      `get_all_documents` returned before. */
  lemma {:induction false} AddThenAllDocuments(s: Store, items: seq<ContentItem>, newIds: seq<Id>)
    requires |newIds| == |items| && Distinct(newIds)
    requires forall id :: id in newIds ==> id !in s.content
    requires forall item :: item in items ==> Encodable(item)
    ensures GetAllDocuments(AddDocuments(s, items, newIds)) == GetAllDocuments(s) + NewDocuments(items, newIds)
  {
    var r := AddDocuments(s, items, newIds);
    ExtensionDocuments(s, r, items, newIds);
  }

  /** `get_all_documents` of a store that extends `s` by `newIds`, holding
      the records of `items` under them. */
  lemma ExtensionDocuments(s: Store, r: Store, items: seq<ContentItem>, newIds: seq<Id>)
    requires |newIds| == |items|
    requires forall item :: item in items ==> Encodable(item)
    requires r.order == s.order + newIds
    requires forall i :: 0 <= i < |items| ==> newIds[i] in r.content && r.content[newIds[i]] == StoredOf(items[i])
    requires forall id :: id in s.content ==> id in r.content && r.content[id] == s.content[id]
    ensures GetAllDocuments(r) == GetAllDocuments(s) + NewDocuments(items, newIds)
  {
    var lhs, old_, new_ := GetAllDocuments(r), GetAllDocuments(s), NewDocuments(items, newIds);
    assert lhs[..|old_|] == old_ by {
      assert r.order[..|s.order|] == s.order;
      OldDocumentsKept(s, r);
    }
    assert lhs[|old_|..] == new_ by {
      assert r.order[|s.order|..] == newIds;
      NewDocumentsAppended(r, |s.order|, items, newIds);
    }
    Rejoin(lhs, old_, new_);
  }

  /** A sequence whose first |a| elements are `a` and whose rest is `b`. */
  lemma Rejoin<T>(s: seq<T>, a: seq<T>, b: seq<T>)
    requires |a| <= |s| && s[..|a|] == a && s[|a|..] == b
    ensures s == a + b
  {
    assert s == s[..|a|] + s[|a|..];
  }

  /** The documents listed before the call keep their places. */
  lemma OldDocumentsKept(s: Store, r: Store)
    requires |s.order| <= |r.order| && r.order[..|s.order|] == s.order
    requires forall id :: id in s.content ==> id in r.content && r.content[id] == s.content[id]
    ensures GetAllDocuments(r)[..|s.order|] == GetAllDocuments(s)
  {
    var lhs, rhs := GetAllDocuments(r)[..|s.order|], GetAllDocuments(s);
    forall i | 0 <= i < |s.order| ensures lhs[i] == rhs[i] {
      assert r.order[i] == s.order[i];
    }
  }

  /** The new documents follow them, in item order. */
  lemma NewDocumentsAppended(r: Store, start: nat, items: seq<ContentItem>, newIds: seq<Id>)
    requires |newIds| == |items|
    requires forall item :: item in items ==> Encodable(item)
    requires start <= |r.order| && r.order[start..] == newIds
    requires forall i :: 0 <= i < |items| ==> newIds[i] in r.content && r.content[newIds[i]] == StoredOf(items[i])
    ensures GetAllDocuments(r)[start..] == NewDocuments(items, newIds)
  {
    var lhs, rhs := GetAllDocuments(r)[start..], NewDocuments(items, newIds);
    forall j | 0 <= j < |items| ensures lhs[j] == rhs[j] {
      var d := lhs[j];
      assert d.docId == newIds[j];
      assert d == Document(newIds[j], StoredOf(items[j]));
    }
  }
}
